=== FILE: README.md ===
# Screenshot session recorder — a verified model of its core

The system is a desktop tool for documenting how an application is used. An
Electron/React window lets the operator pick or launch a target application,
then do any of these:

- select a region of the screen while the target is focused;
- name and describe each capture;
- assemble the captures into a session.

A local Python backend (`python_backend/desktop_app.py`) does the work:

- it focuses the target's window;
- it shows a full-screen overlay for the region selection;
- it grabs the pixels and files the images in per-application folders under a
  capture root;
- it writes a JSON manifest for each session;
- it deduplicates, removes and clears saved images.

This project models that core in Dafny and proves what it promises. The
modules are:

- `Names` (names.dfy): string helpers, the folder-name sanitiser, the clock
  stamps, and the file-name rules (stamped names, logical names, the save
  glob).
- `SessionStore` (store.dfy): the capture root as an ordered list of files
  plus a list of application folders, as a `Store` class. Its methods are
  saving with duplicate detection, session assembly, bulk deduplication, JSON
  cleanup, removal and the full clear. Each method is proved against
  specification functions (`FirstSaved`, `SessionFold`, `Duplicates`,
  `Minus`, `Listing`), and the properties are proved about those functions.
- `Capture` (capture.dfy): region normalisation and the ten-pixel rule, the
  capture step, the single-slot mailbox the frontend polls, the selection
  overlay's mouse handlers, and the recording flag with its loop.
- `WindowLocator` (locator.dfy): the keyword matching of `focus_window`, the
  window list of `get_windows`, and the strategy list and fallback of
  `start_region_selection`.
- `RunningApps` (processes.dfy): `get_running_apps`. It filters the process
  table, keeps one entry per name, sorts by name and keeps fifty.
- `Ordering` (ordering.dfy): Python's string order and a stable `sort(key=)`.
- `Renderer` (renderer.dfy), for the logic of `src/renderer/App.tsx`: the
  image URL, the dashed selection box, the session-list filter and the
  launched application's name.
- `Optional` (optional.dfy): the `Option` type.

The model replaces the operating system with parameters:

- the file system is the store's state;
- the window enumeration and the process table are sequences;
- the clock is a `Moment` value;
- the outcome of a screen grab is an `Option<string>` failure message;
- the recording loop's grabs are a sequence of frames.

## Model

| member | source | states |
|---|---|---|
| Names.ReplaceReserved | python_backend/desktop_app.py:471 | Every character of `<>:"/\|?*` becomes `_`, the length is kept, and no reserved character remains. |
| Names.CleanAppNameIsSafe | python_backend/desktop_app.py:460-461 | The sanitised folder name has no reserved character, no space, and no leading or trailing `_`. |
| Names.RemovalKeepsSafe | python_backend/desktop_app.py:461 | Removing a pattern such as `.exe` from a name without reserved characters introduces none. |
| Names.StripKeepsSafe | python_backend/desktop_app.py:461 | Stripping a name without reserved characters or spaces gives a safe folder name. |
| Names.RemoveAllDropsOnly | python_backend/desktop_app.py:461 | `str.replace(pat, '')` only drops characters; every character of the result occurs in the input. |
| Names.StripKeepsChars | python_backend/desktop_app.py:461 | `strip('_')` only drops characters. |
| Names.StripUnderscores | python_backend/desktop_app.py:461 | `strip('_')`: the stripped name neither starts nor ends with `_` and is no longer than the input. |
| Names.StripLeading | python_backend/desktop_app.py:461 | Drops a leading run made only of `_`: the rest is a suffix of the input that does not start with `_`. |
| Names.StripTrailing | python_backend/desktop_app.py:461 | Drops a trailing run made only of `_`: the rest is a prefix of the input that does not end with `_`. |
| Names.StripRemovesOnlyEdges | python_backend/desktop_app.py:461 | The stripped name is the slice of the input between its leading and its trailing run of `_`: strip removes the edge underscores and nothing else. |
| Names.CleanAppName | python_backend/desktop_app.py:460-461 | The folder name: reserved characters become `_`, `.exe` is removed, spaces become `_`, and edge `_` go, in that order. It has no contract of its own; Names.CleanAppNameIsSafe, Names.CleanAppNameKeepsCleanNames and Names.ExeCanSurviveCleaning state its properties. |
| Names.RemoveAll | python_backend/desktop_app.py:461 | `str.replace(pat, '')`: one left-to-right pass dropping non-overlapping occurrences; the result is never longer (Names.RemoveAllDropsOnly: it only drops characters). |
| Names.SpacesToUnderscores | python_backend/desktop_app.py:461 | Every space becomes `_`; other characters are kept. |
| Names.ExeCanSurviveCleaning | python_backend/desktop_app.py:460-461 | `.exe` removal is a single pass: `a..exeexe` cleans to `a.exe`, which still contains `.exe`. |
| Names.ExeRemovalRejoins | python_backend/desktop_app.py:461 | One left-to-right pass over `a..exeexe` leaves `a.exe`. |
| Names.CleanAppNameKeepsCleanNames | python_backend/desktop_app.py:460-461 | A name without reserved characters, spaces or `.exe`, and without a leading or trailing `_`, is its own folder name. |
| Names.CleaningKeeps | python_backend/desktop_app.py:460-461 | Each cleaning step leaves a name already free of reserved characters, spaces, edge underscores and the removed pattern unchanged. |
| Names.CleanedTo | python_backend/desktop_app.py:460-461 | A name without reserved characters whose `.exe` removal leaves no spaces and no edge underscores is cleaned to that removal's result. |
| Names.Digits | python_backend/desktop_app.py:487 | Zero-padded decimal rendering: exactly `width` decimal digits (their value is Names.DigitsValue). |
| Names.DigitsValue | python_backend/desktop_app.py:487 | A number below 10^width reads back from its rendering: the zero-padded fields of a stamp spell the clock's values. |
| Names.DigitsInjective | python_backend/desktop_app.py:487 | Two numbers below 10^width never share a rendering. |
| Names.Stamp | python_backend/desktop_app.py:487 | `strftime('%Y%m%d_%H%M%S')` gives eight digits, `_` and six digits. |
| Names.StampInjective | python_backend/desktop_app.py:487 | Two readings with the same stamp agree on every field down to the second. |
| Names.NewYearStamp | python_backend/desktop_app.py:487 | 1 January 2024 at midnight is stamped `20240101_000000`. |
| Names.MilliStamp | python_backend/desktop_app.py:945 | `%Y%m%d_%H%M%S_%f` cut by three: the stamp, `_`, and the milliseconds `micro / 1000` as three digits (19 characters). |
| Names.MicroDigitsHead | python_backend/desktop_app.py:945 | The first three of the six microsecond digits are the milliseconds, `micro / 1000`, in three digits. |
| Names.IsoFormat | python_backend/desktop_app.py:628 | `isoformat()` has 19 characters, or 26 with microseconds, with `-`, `T` and `:` at the fixed positions (the fields: Names.IsoFormatFields). |
| Names.IsoDate | python_backend/desktop_app.py:628 | The date part `YYYY-MM-DD`: 10 characters with `-` at offsets 4 and 7. |
| Names.IsoTime | python_backend/desktop_app.py:628 | The time part `HH:MM:SS`: 8 characters with `:` at offsets 2 and 5. |
| Names.IsoDateFields | python_backend/desktop_app.py:628 | The date part's fields are the zero-padded year, month and day. |
| Names.IsoTimeFields | python_backend/desktop_app.py:628 | The time part's fields are the zero-padded hour, minute and second. |
| Names.IsoFormatFields | python_backend/desktop_app.py:628 | Each field of `isoformat()` spells the reading at its fixed offset, and with microseconds `.` and six digits follow. |
| Names.IsoFormatInjective | python_backend/desktop_app.py:664 | Two readings with the same isoformat are the same reading, down to the microsecond. |
| Names.LastIndex | python_backend/desktop_app.py:1109 | The index of the last occurrence of a character (the `.` of a suffix, the backslash of a Windows path), or -1 when there is none. |
| Names.StripStamp | python_backend/desktop_app.py:1111 | The `_\d{8}_\d{6}$` substitution: the result is a prefix of the stem; it is 16 characters shorter, having dropped `_` and a stamp, exactly when the stem ends in `_` and a stamp, and otherwise the whole stem. |
| Names.Stem | python_backend/desktop_app.py:1109 | `PurePath.stem`: the name without its last suffix, where a dot that opens or ends the name starts no suffix. It has no contract of its own; Names.LogicalNameOfStampedName uses it. |
| Names.LogicalName | python_backend/desktop_app.py:1109-1111 | The key of the bulk deduplication: the stem with its stamp stripped. It has no contract of its own; Names.LogicalNameOfStampedName and Names.GlobWiderThanLogicalName state its properties. |
| Names.StripStampRoundTrip | python_backend/desktop_app.py:1111 | Stripping the stamp from `{clean}_{stamp}` gives `clean` back. |
| Names.StampedName | python_backend/desktop_app.py:487 | A saved file's name `{clean}_{stamp}.png` is a `.png`. |
| Names.LogicalNameOfStampedName | python_backend/desktop_app.py:1107-1111 | The logical name of a saved file is the clean name it was saved under. |
| Names.StampedNameMatchesGlob | python_backend/desktop_app.py:445 | A saved file matches its own glob `{clean}_*.png`. |
| Names.MatchesSavedGlob | python_backend/desktop_app.py:445 | `{clean}_*.png`: the name starts with `clean_` and ends with `.png`, the two not overlapping. It has no contract of its own; Names.StampedNameMatchesGlob and Names.GlobWiderThanLogicalName state its properties. |
| Names.GlobWiderThanLogicalName | python_backend/desktop_app.py:445 | The save's glob for `foo` matches `foo_bar_<stamp>.png`, whose logical name is `foo_bar`. |
| Names.ContainsAt | python_backend/desktop_app.py:147 | A needle found at an index is contained (`in`). |
| Names.ContainsWitness | python_backend/desktop_app.py:147 | A contained needle occurs at some index. |
| SessionStore.FolderOf | python_backend/desktop_app.py:462 | `screenshots_dir / clean`: the root itself for an empty name or `.`, the root's parent (outside the capture tree) for `..`, and otherwise the application folder `clean`. |
| SessionStore.DotNamesLeaveTheFolders | python_backend/desktop_app.py:460-462 | The application name `..exe` files its images in the capture root itself, and `...exe` files them beside the root. |
| SessionStore.OneDotCleansTo | python_backend/desktop_app.py:460-461 | `..exe` cleans to `.`, because `.exe` removal is one pass. |
| SessionStore.TwoDotsCleanTo | python_backend/desktop_app.py:460-461 | `...exe` cleans to `..`, for the same reason. |
| SessionStore.Minus | python_backend/desktop_app.py:1115 | Deleting a set of files keeps exactly the others; a distinct list stays distinct (order: SessionStore.MinusKeepsOrder). |
| SessionStore.MinusKeepsOrder | python_backend/desktop_app.py:1107-1116 | Deletion works file by file, so the files that stay keep their order: deleting from two parts joined is deleting from each part. |
| SessionStore.Add | python_backend/desktop_app.py:491 | A written file exists afterwards and no other file appears; distinct lists stay distinct. A new file goes last and an existing one keeps its place. |
| SessionStore.MoveFile | python_backend/desktop_app.py:491 | `shutil.move`: the source goes and the destination is written; moving a file onto itself changes nothing. It has no contract of its own; SessionStore.Store.Move states it as a method. |
| SessionStore.Listing | python_backend/desktop_app.py:1107 | `glob('*' + ext)` lists exactly the folder's files with that ending. |
| SessionStore.Locate | python_backend/desktop_app.py:635-647 | A shot is found at its own path, else in the root under its file name, else not at all. |
| SessionStore.FirstSaved | python_backend/desktop_app.py:438-451 | None exactly when no folder entry matches `{clean}_*.png`; otherwise the earliest match. |
| SessionStore.ScanSaved | python_backend/desktop_app.py:445-448 | The scan over a folder's entries returns the first entry the glob matches, or nothing. |
| SessionStore.SaveAddsOneFile | python_backend/desktop_app.py:486-491 | Without a duplicate, the save removes the source and appends exactly one file, `{clean}_{stamp}.png`, in the folder. |
| SessionStore.SessionFoldCreatesOnlyImages | python_backend/desktop_app.py:634-667 | The session loop creates only `.png` files in the application folder, so it never recreates the removed manifest. |
| SessionStore.SessionFoldRemovesOnlySources | python_backend/desktop_app.py:634-667 | The session loop removes only the given screenshots, at their path or at root/filename. |
| SessionStore.StepRemovesOnlySource | python_backend/desktop_app.py:637-665 | One step of the session loop removes at most the screenshot it handles, at its path or at root/filename. |
| SessionStore.SessionStep | python_backend/desktop_app.py:637-665 | One pass: a located shot is moved to `{clean}_{stamp}.png` in the folder, stamped with the pass's first clock reading, and yields an entry. The entry's description defaults to `""` and its timestamp to the isoformat of the second, later reading. A missing shot changes nothing. It has no contract of its own; SessionStore.StepFiled and SessionStore.StepRemovesOnlySource state its properties. |
| SessionStore.SessionFold | python_backend/desktop_app.py:634-667 | The session loop, pass after pass in input order, each pass seeing the files the previous ones left. It has no contract of its own; the SessionFold and SessionEntries lemmas state its properties. |
| SessionStore.StepFiled | python_backend/desktop_app.py:649-665 | A processed shot's entry names a `.png` in the folder whose logical name is the shot's clean name. |
| SessionStore.SessionEntriesFiledByName | python_backend/desktop_app.py:634-667 | Every manifest entry names a `.png` in the folder, keyed by its clean name. |
| SessionStore.ImageNames | python_backend/desktop_app.py:660-665 | The `image_name` of each entry, in order. |
| SessionStore.StepNames | python_backend/desktop_app.py:634-635 | The name of each requested shot, in order. |
| SessionStore.SessionEntriesInInputOrder | python_backend/desktop_app.py:634-667 | The manifest's image names are a subsequence of the request's names: input order is kept and missing shots are skipped. |
| SessionStore.FoundNames | python_backend/desktop_app.py:634-647 | The names of the shots the loop locates, in input order, each looked up in the files as the earlier passes left them. It has no contract of its own. |
| SessionStore.SessionEntriesAreFoundShots | python_backend/desktop_app.py:634-667 | The manifest's image names are exactly the names of the shots located, in input order: one entry per shot found, none for a shot missing. |
| SessionStore.BasesMembers | python_backend/desktop_app.py:1104-1119 | The keys seen are exactly the keys of the files scanned. |
| SessionStore.Duplicates | python_backend/desktop_app.py:1104-1119 | The files the scan deletes: those whose key an earlier file already has. It has no contract of its own; SessionStore.DuplicatesAreLaterTwins, SessionStore.OnePerKey and SessionStore.DuplicatesCount state its properties. |
| SessionStore.DuplicatesCount | python_backend/desktop_app.py:1104-1119 | Files removed plus distinct base names equals the number of pngs. |
| SessionStore.DuplicatesInside | python_backend/desktop_app.py:1104-1119 | Only scanned files are removed. |
| SessionStore.DuplicatesAreLaterTwins | python_backend/desktop_app.py:1104-1119 | A file is removed exactly when an earlier file has its base name. |
| SessionStore.OnePerKey | python_backend/desktop_app.py:1104-1119 | Afterwards each base name has exactly one file, the first seen. |
| SessionStore.FirstWithKey | python_backend/desktop_app.py:1113-1119 | The first file with a given base name exists and no earlier file has that name. |
| SessionStore.CleanupTouchesOnlyFolderImages | python_backend/desktop_app.py:1099-1119 | The bulk dedup deletes only that folder's `.png` files; other files and other folders are untouched. |
| SessionStore.JsonIsNotPng | python_backend/desktop_app.py:1015-1023 | A `.json` name is never a `.png` name, so the two passes of the clear are disjoint. |
| SessionStore.MinusUnion | python_backend/desktop_app.py:730-735 | Deleting one set and then another is deleting their union. |
| SessionStore.Store.MakeFolder | python_backend/desktop_app.py:463 | `mkdir(exist_ok=True)`: the folder exists afterwards and is added only if new; files are unchanged. |
| SessionStore.Store.UnlinkAll | python_backend/desktop_app.py:1143-1147 | Each listed file is deleted and counted. |
| SessionStore.Store.Move | python_backend/desktop_app.py:491 | `shutil.move`: the source goes and the destination exists. |
| SessionStore.Store.FindDuplicate | python_backend/desktop_app.py:438-451 | None for a missing folder; otherwise the first folder entry the glob matches. |
| SessionStore.Store.SaveWithMetadata | python_backend/desktop_app.py:453-499 | Missing source: "Screenshot file not found"; no file changes, but the application folder is still created, since the folder is made before the check. Glob match: that file is returned and the new file deleted. Otherwise exactly one stamped file is added in the folder and the source is gone. |
| SessionStore.Store.CreateSession | python_backend/desktop_app.py:607-687 | The old manifest is removed first, the shots are filed as `SessionFold` says, the manifest is written last, and the count equals the entries processed. |
| SessionStore.Store.FileShots | python_backend/desktop_app.py:634-667 | The loop's files and entries equal `SessionFold`'s. |
| SessionStore.Store.FileShot | python_backend/desktop_app.py:635-667 | One pass: a found shot is moved under its stamped clean name with an entry; a missing one changes nothing. |
| SessionStore.Store.KeepFirstPerKey | python_backend/desktop_app.py:1104-1119 | The scan deletes exactly `Duplicates` and counts them. |
| SessionStore.DuplicatesStep | python_backend/desktop_app.py:1107-1119 | A further file is a duplicate exactly when its key was seen; otherwise its key joins the seen set. |
| SessionStore.Store.CleanupDuplicates | python_backend/desktop_app.py:1091-1128 | No folder: nothing changes. Otherwise the later twins among the folder's pngs are deleted and counted. |
| SessionStore.Store.CleanupOldJson | python_backend/desktop_app.py:1130-1156 | The folder is created if needed; every `.json` in it is deleted and counted. |
| SessionStore.Store.RemoveScreenshot | python_backend/desktop_app.py:721-740 | A missing file: "Screenshot file not found" and nothing changes. Otherwise the image and its `.json` sidecar, if any, are deleted, and nothing else is. |
| SessionStore.Sidecar | python_backend/desktop_app.py:733 | `with_suffix('.json')`: the metadata file beside an image, in the same folder. It has no contract of its own; SessionStore.Store.RemoveScreenshot uses it. |
| SessionStore.Store.RemoveFolders | python_backend/desktop_app.py:1030-1038 | Every application folder is removed with its content and counted. |
| SessionStore.Store.ClearAll | python_backend/desktop_app.py:1008-1044 | Exactly the root's pngs and jsons and every folder's files go; the count is pngs + jsons + folders. |
| SessionStore.JsonsSurviveImageSweep | python_backend/desktop_app.py:1013-1028 | Deleting the root's images leaves the list of its metadata files unchanged. |
| SessionStore.SweepLeavesUnswept | python_backend/desktop_app.py:1013-1036 | After the three sweeps exactly the files outside the root's images and metadata and the application folders remain. |
| Capture.Normalize | python_backend/desktop_app.py:548-552 | Origin at the smaller corner, size the absolute difference; the region spans corner to corner. |
| Capture.NormalizeSymmetric | python_backend/desktop_app.py:808-812 | Swapping the corners, or using the other diagonal, gives the same region. |
| Capture.NormalizeIsBoundingBox | python_backend/desktop_app.py:548-552 | The region is the smallest box holding both corners. |
| Capture.RegionFileName | python_backend/desktop_app.py:407-408 | `region_screenshot_{stamp}.png` is a png with that prefix. |
| Capture.CaptureReply | python_backend/desktop_app.py:404-436 | Success exactly when the grab does not fail: a png in the root, with the region echoed. |
| Capture.CaptureRegion | python_backend/desktop_app.py:404-436 | On success one file is written in the root; on failure nothing changes; the reply is `CaptureReply`. |
| Capture.Mailbox.Put | python_backend/desktop_app.py:560-561 | A new result overwrites any unread one. |
| Capture.Mailbox.Take | python_backend/desktop_app.py:597-605 | Delivers the stored result or "No capture result available"; the slot is empty afterwards. |
| Capture.Overlay.MouseDown | python_backend/desktop_app.py:532-538 | Records the press point and a zero-size rectangle. |
| Capture.Overlay.MouseMove | python_backend/desktop_app.py:540-543 | Stretches an existing rectangle to the mouse position. |
| Capture.Overlay.Escape | python_backend/desktop_app.py:565-566 | Closes without capturing. |
| Capture.Overlay.MouseUp | python_backend/desktop_app.py:545-563 | The release as written (Capture.Released): the store, the mailbox and the window end as that function says. |
| Capture.Released | python_backend/desktop_app.py:545-563 | A region is captured only when both sides of the normalised rectangle exceed 10, and the image is then written on a successful grab. The system overlay never writes the mailbox, and it stays open exactly when it captured. The visual overlay stores a success only and closes once a rectangle exists. |
| Capture.IntendedRelease | python_backend/desktop_app.py:545-563 | As intended, the system overlay stores the capture reply, success or failure, and every overlay with a rectangle closes; for the visual overlay, or without a large rectangle, this is the release as written. |
| Capture.SystemDragLosesCapture | python_backend/desktop_app.py:404-436 | A system-overlay drag from (0, 0) to (100, 100) saves the image but, as written, leaves the mailbox empty and the window open; as intended, it delivers the capture and closes. |
| Capture.FrameName | python_backend/desktop_app.py:945-946 | `recording_{app}_{stamp}.png` is a png starting with `recording_`. |
| Capture.Written | python_backend/desktop_app.py:942-959 | The loop gets through the frames up to the first failed grab. |
| Capture.WrittenIs | python_backend/desktop_app.py:942-959 | The first failed grab's index is the count written. |
| Capture.FrameNames | python_backend/desktop_app.py:945-946 | The name of each frame, in order. |
| Capture.RecordingAddsOnlyFrames | python_backend/desktop_app.py:938-959 | Recording keeps every file and adds only `recording_*.png` files in the root. |
| Capture.RecordedKeepsAndAdds | python_backend/desktop_app.py:942-952 | The same, for any prefix of the frame names. |
| Capture.Recorder.Start | python_backend/desktop_app.py:906-925 | While recording: "Already recording" and the current app is unchanged. Otherwise both are set and "Recording started" is returned. |
| Capture.Recorder.Stop | python_backend/desktop_app.py:927-936 | Always clears the flag and says "Recording stopped", so stopping twice is stopping once. |
| Capture.Recorder.RecordingLoop | python_backend/desktop_app.py:938-959 | Writes one frame per pass; the first failed grab clears the flag and ends the loop. |
| Capture.Recorder.WriteFrames | python_backend/desktop_app.py:942-959 | The loop, given the frame names. |
| Ordering.StrLeTotal | python_backend/desktop_app.py:239 | Python string order is total. |
| Ordering.StrLeTrans | python_backend/desktop_app.py:239 | Python string order is transitive. |
| Ordering.StrLeAntisymmetric | python_backend/desktop_app.py:239 | Python string order is antisymmetric. |
| Ordering.Insert | python_backend/desktop_app.py:239 | Insertion adds exactly the one element. |
| Ordering.InsertSorted | python_backend/desktop_app.py:239 | Insertion keeps the list sorted. |
| Ordering.SortBy | python_backend/desktop_app.py:239 | The sort is a permutation (same multiset). |
| Ordering.SortBySorted | python_backend/desktop_app.py:239 | The sorted list is in key order. |
| Ordering.SortByMembers | python_backend/desktop_app.py:239 | Sorting neither adds nor drops an element. |
| Ordering.InsertKeysDistinct | python_backend/desktop_app.py:239 | Insertion of a new key keeps the keys distinct. |
| Ordering.SortByKeysDistinct | python_backend/desktop_app.py:239 | Sorting keeps the keys distinct. |
| Ordering.Take | python_backend/desktop_app.py:243 | `s[:n]` is the prefix of length min(n, len). |
| WindowLocator.LowerChar | python_backend/desktop_app.py:149 | ASCII lower-casing: no upper-case letter remains; other characters are kept. |
| WindowLocator.Lower | python_backend/desktop_app.py:149 | Lower-cases each character, keeping the length. |
| WindowLocator.OneKeyword | python_backend/desktop_app.py:147 | With one keyword, a window matches iff it is visible, titled and its title contains the keyword, ignoring case. |
| WindowLocator.Matches | python_backend/desktop_app.py:144-149 | The callback's test: visible, titled, and some keyword in the title, ignoring case. It has no contract of its own; WindowLocator.OneKeyword and WindowLocator.Matching state its properties. |
| WindowLocator.FocusResult | python_backend/desktop_app.py:151-155 | The first matching window, or none. It has no contract of its own; WindowLocator.FocusResultIsEarliestMatch and WindowLocator.FocusResultNoWindow state its properties. |
| WindowLocator.Matching | python_backend/desktop_app.py:144-149 | The found windows are exactly the matching windows. |
| WindowLocator.FocusWindow | python_backend/desktop_app.py:134-202 | The enumeration loop's result equals `FocusResult`. |
| WindowLocator.FocusResultIsEarliestMatch | python_backend/desktop_app.py:151-155 | The focused window is the earliest match in enumeration order. |
| WindowLocator.FocusResultNoWindow | python_backend/desktop_app.py:151-199 | No window is focused exactly when no window matches. |
| WindowLocator.Titled | python_backend/desktop_app.py:256-264 | The listing keeps exactly the visible, titled windows. |
| WindowLocator.WindowList | python_backend/desktop_app.py:256-275 | The titled windows sorted by lower-cased title, the first fifty. It has no contract of its own; WindowLocator.GetWindows states its properties. |
| WindowLocator.GetWindows | python_backend/desktop_app.py:249-278 | At most 50 windows, sorted by lower-cased title, each visible, titled and enumerated. |
| WindowLocator.LastSep | python_backend/desktop_app.py:325 | The index of the last `/` or `\`, or -1 when there is none. |
| WindowLocator.AfterLastSep | python_backend/desktop_app.py:325 | The base name ends the path, holds no separator, and follows one unless it is the whole path. |
| WindowLocator.BaseName | python_backend/desktop_app.py:325 | `os.path.basename` on Windows: a leading `X:` is split off, then what follows the last separator is kept. It has no contract of its own; WindowLocator.AfterLastSep states the rest. |
| WindowLocator.ExeName | python_backend/desktop_app.py:325 | `exe_name`: the base name with `.exe` removed in one pass. It has no contract of its own. |
| WindowLocator.AppName | python_backend/desktop_app.py:326 | `app_name`: `.exe` removed once more from `exe_name`. It has no contract of its own. |
| WindowLocator.FamilyOf | python_backend/desktop_app.py:338-356 | The family tests in order: `SSMS` or `sql`, then `chrome`, then `firefox`. It has no contract of its own; WindowLocator.SqlAliasesWin states the precedence. |
| WindowLocator.Aliases | python_backend/desktop_app.py:338-356 | At most four extra single-keyword strategies per family. |
| WindowLocator.Strategies | python_backend/desktop_app.py:325-356 | Five fixed strategies (application, exe name, app name, each name lower-cased), then the family's aliases. |
| WindowLocator.SqlAliasesWin | python_backend/desktop_app.py:338-344 | Any path mentioning "sql" in any case gets the SQL Server aliases, even if it mentions Chrome. |
| WindowLocator.FirstFocused | python_backend/desktop_app.py:358-371 | Nothing is focused exactly when every strategy fails. |
| WindowLocator.FirstFocusedWinner | python_backend/desktop_app.py:358-371 | The first strategy that focuses a window wins: the reported title is that strategy's, and every strategy before it found no window. |
| WindowLocator.FirstFocusedIsMatch | python_backend/desktop_app.py:361-369 | A focused title belongs to a window that one strategy matches. |
| WindowLocator.FallbackNeverFocuses | python_backend/desktop_app.py:373-390 | On the one window list a request is served from, once all strategies fail no listed title contains the exe name or the app name. |
| WindowLocator.StrategyFailed | python_backend/desktop_app.py:361-371 | With nothing focused, each strategy failed. |
| WindowLocator.KeywordNotFound | python_backend/desktop_app.py:383-384 | A keyword no window matches occurs in no listed title. |
| WindowLocator.FocusedByExeName | python_backend/desktop_app.py:325-390 | If a visible, titled window's title mentions the executable's name, then `window_focused` is true: some window is focused, not necessarily this one, since an earlier strategy may win. |
| WindowLocator.StartRegionSelection | python_backend/desktop_app.py:318-402 | The reply equals `Selection`: ready with the first focused title, or a failure without an application. |
| WindowLocator.Selection | python_backend/desktop_app.py:318-402 | The reply as written: a failure without an application, otherwise ready with the first focused title. It has no contract of its own; WindowLocator.MissingApplicationFails and WindowLocator.StartRegionSelection are about it. |
| WindowLocator.TryStrategies | python_backend/desktop_app.py:358-371 | The strategy loop reports the title of the first strategy that focuses a window, as `FirstFocused`. |
| WindowLocator.LastResort | python_backend/desktop_app.py:373-390 | Reached only after every strategy failed, the fallback scan of the same window list focuses nothing. |
| WindowLocator.IntendedSelection | python_backend/desktop_app.py:393-399 | Always ready, with `window_focused` iff a title is given; equal to `Selection` when an application is given. |
| WindowLocator.MissingApplicationFails | python_backend/desktop_app.py:321-399 | With no or an empty application the written code fails, while the intended reply is ready. |
| RunningApps.CandidatesAreOffered | python_backend/desktop_app.py:217-229 | The candidates are exactly the entries of processes with a name other than "" and "System Idle Process". |
| RunningApps.Candidates | python_backend/desktop_app.py:217-229 | `apps` after the first loop: one entry per offered process, in table order, never more entries than processes. |
| RunningApps.FirstPerName | python_backend/desktop_app.py:232-237 | The dedup keeps the set of names and makes the names distinct. |
| RunningApps.FirstPerNameKeepsFirst | python_backend/desktop_app.py:232-237 | An entry is kept exactly when no earlier entry has its name. |
| RunningApps.NameSetSnoc | python_backend/desktop_app.py:235-236 | Adding an entry adds its name to the seen set. |
| RunningApps.GetRunningApps | python_backend/desktop_app.py:213-247 | The two loops, the sort and the cut equal `Listing`. |
| RunningApps.Listing | python_backend/desktop_app.py:232-243 | The first entry per name, sorted by name, the first fifty. It has no contract of its own; RunningApps.ListingSound and RunningApps.ListingComplete state its properties. |
| RunningApps.ListingSound | python_backend/desktop_app.py:239-243 | At most 50 entries, sorted by name, names distinct, each the first entry of an offered process. |
| RunningApps.ListingComplete | python_backend/desktop_app.py:239-243 | An offered name is missing only when the list is full and every listed name sorts no later. |
| Renderer.Slashes | src/renderer/App.tsx:499 | Every backslash becomes `/`; other characters are kept. |
| Renderer.ImageSrc | src/renderer/App.tsx:495-504 | `getImageSrc`: empty for an empty path, otherwise `file://` and the slash-normalised path, rooted with one `/`. It has no contract of its own; the ImageSrc lemmas state its properties. |
| Renderer.ImageSrcIsFileUrl | src/renderer/App.tsx:495-504 | A non-empty path gives a `file:///` URL without a backslash that ends with the normalised path and adds at most 8 characters. |
| Renderer.SchemeBeforeRoot | src/renderer/App.tsx:500-501 | `file://` before a `/`-rooted path without backslashes gives a `file:///` URL without backslashes that keeps the path's ending. |
| Renderer.ImageSrcOfRootedPath | src/renderer/App.tsx:498-501 | A path whose first character is `/` or `\` gets exactly `file://` before its slash-normalised form, with no `/` added; a path without backslashes is kept whole. |
| Renderer.ImageSrcOfWindowsPath | src/renderer/App.tsx:495-504 | `C:\a` becomes `file:///C:/a`. |
| Renderer.SelectionBoxIsCapturedRegion | src/renderer/App.tsx:473-492 | No box while either point is missing; otherwise the minima and absolute differences (the overlays' region); symmetric in the points. |
| Renderer.SelectionStyle | src/renderer/App.tsx:473-492 | No box while a corner is missing, otherwise the minima and absolute differences. It has no contract of its own; Renderer.SelectionBoxIsCapturedRegion states its properties. |
| Renderer.WithoutPath | src/renderer/App.tsx:456 | `prev.filter(s => s.path !== screenshotPath)`: never longer than the list (which entries stay: Renderer.WithoutPathKeepsOthers). |
| Renderer.WithoutPathKeepsOthers | src/renderer/App.tsx:456 | Exactly the entries with another path stay. |
| Renderer.WithoutPathKeepsOrder | src/renderer/App.tsx:456 | Filtering a concatenation filters each part, so order is kept. |
| Renderer.WithoutPathIdempotent | src/renderer/App.tsx:456 | Removing a path twice is removing it once. |
| Renderer.AfterLastBackslash | src/renderer/App.tsx:189 | The last segment ends the path, holds no backslash, and follows one unless it is the whole path. |
| Renderer.LaunchedAppName | src/renderer/App.tsx:189 | `appPath.split('\\').pop() \|\| 'Unknown'`. It has no contract of its own; Renderer.LaunchedAppNameIsLastSegment states its properties. |
| Renderer.LaunchedAppNameIsLastSegment | src/renderer/App.tsx:189 | The name is never empty and has no backslash. It is "Unknown" for an empty path or a trailing backslash; otherwise it is the last backslash-separated segment. |
| Renderer.ForwardSlashPathKeptWhole | src/renderer/App.tsx:189 | A path with forward slashes is shown whole. |

## Left out

- The Flask transport (`handle_command`, `jsonify`) is not modelled. Replies are datatypes, with the success flags and human-readable messages reduced to the cases they distinguish.
- Absent and null session fields: in `SessionStore.ShotInfo` an absent `description` or `timestamp` and one sent as JSON null are both `None`, so both get the default, whereas `dict.get` defaults only an absent key. The renderer always sends both fields, so no reachable request tells them apart.
- Calls into the operating system are not modelled: Win32 window calls, `mss` screen grabs, `tkinter` overlays, `psutil` and `subprocess`. Their outcomes are parameters: window and process sequences, a grab failure message, the frames of the recording loop.
- The recording thread, `time.sleep`, the overlay's event loop and timers are not modelled. The recording loop runs over the frames that arrive before the flag is cleared, and stopping from another thread is the end of that sequence.
- WindowLocator.LowerChar: only ASCII letters are folded; Python's full Unicode `lower()` is not modelled.
- Overlay and renderer coordinates are integers. Tkinter and JavaScript numbers may be floats, which is not modelled.
- WindowLocator.FocusWindow: the reply does not carry the message texts. Exceptions raised by the window calls are not modelled.
- WindowLocator.Selection: the failure reply does not carry the text of the `UnboundLocalError`.
- WindowLocator.BaseName: UNC paths (`\\server\share`) are not split as `ntpath` does; only a `X:` drive prefix is.
- Names.MatchesSavedGlob: pathlib glob is modelled for a clean name without `*`, `?` or `[`. A reserved-character substitution already removes `*` and `?`; `[` and `]` are treated literally, and directories are never matched.
- SessionStore.Store.SaveWithMetadata: the `description` argument is accepted and unused, as in the code. It is also not stored in the model.
- The save's duplicate check follows the code, which uses the glob `{clean}_*.png`, not the logical-name key of the bulk deduplication. The two differ (Names.GlobWiderThanLogicalName).
- SessionStore.Store.ClearAll: the capture root is assumed to exist. Every sub-directory of the root is an application folder; other directories there are not modelled.
- WindowLocator.GetWindows: the failure reply, when enumeration raises, is not modelled. The fallback of start_region_selection therefore always has a list.
- Ordering.SortBy: Python's sort is modelled as an insertion sort. It is proved sorted, a permutation and key-preserving; its stability is not proved.
- RunningApps.GetRunningApps: a process that exits or refuses access during the scan is absent from the input table.
- Names.MatchesSavedGlob: names are compared case-sensitively. Windows globs and paths ignore case, so `Chrome_1_*.png` also matches `chrome_1_…png` there but not in the model.
- SessionStore.Listing: the `*.png` and `*.json` endings are matched case-sensitively; on Windows `A.PNG` is listed as well.
- SessionStore.FolderOf: folder names are case-sensitive in the model, so `Chrome` and `chrome` are two folders; on Windows they are one.
- Names.IsDigit: only ASCII digits are digits. Python's `\d` also matches other Unicode decimal digits, so a stem ending in such a stamp keeps it in the model.
- SessionStore.Add: a new file is placed last, so the model enumerates a directory in creation order. NTFS enumerates by name, so "first seen" in SessionStore.FirstSaved and SessionStore.Duplicates is the earliest created file here and the alphabetically first one there.
- WindowLocator.LastResort: one window list serves every enumeration of a request. The code enumerates afresh in each `focus_window` call and in `get_windows`, so a window that opens between two of them can be focused by the fallback. WindowLocator.FallbackNeverFocuses and WindowLocator.Selection rest on the same one-list assumption.
- WindowLocator.FallbackNeverFocuses: proved for the one window list above; with a fresh enumeration after the strategies the fallback may focus a window.
- SessionStore.FolderOf: the Windows name rules are not modelled: trailing dots and spaces are not dropped, and device names such as `CON` are not refused.
- These operations are outside the modelled core: `get_screenshots`, `organize_screenshots_by_app`, `launch_app`, `capture_screenshot`, `health_check`, `read_json_file`, `check_file_exists`, and the renderer's other handlers and its IPC bridge (`src/main/main.ts`, `src/main/preload.ts`).
- Failure replies from exceptions are not modelled beyond those named above: a failed unlink inside a loop, a failed `mkdir`, a failed manifest write.

## Findings

| source | as written | input that shows it | evidently intended | confidence | as-written member | corrected member |
|---|---|---|---|---|---|---|
| python_backend/desktop_app.py:318-402 | `window_focused` and `focused_window` are bound only inside `if application:`, but the reply reads them unconditionally. | `application` is `None` or `""`: the reply raises `UnboundLocalError` and the caller gets `success: False`. | Selection is ready with nothing focused (`window_focused: False`, `focused_window: None`). | not executed | WindowLocator.Selection | WindowLocator.IntendedSelection |
| python_backend/desktop_app.py:545-563 | The system overlay's release handler runs on the overlay's own thread (line 581). It calls capture_region_screenshot, which returns `jsonify(...)` on both its paths (lines 431, 436); outside a Flask application context that raises, so `last_capture_result` (line 561) and `root.destroy()` (line 563) are skipped. | A system-overlay drag from (0, 0) to (100, 100) with a working grabber: the image is saved, the mailbox stays empty and the overlay stays open. | The capture reply is stored for the frontend and the overlay closes. | not executed | Capture.Released | Capture.IntendedRelease |

=== FILE: capture.dfy ===
/** Region capture and the process-wide state around it
    (python_backend/desktop_app.py): the release rule of the two selection
    overlays, the capture step, the single-slot mailbox the frontend polls,
    and the recording flag with its loop. Screen grabbing is an abstract step
    that either writes one file or fails with a message. */
module Capture {
  import opened Optional
  import opened Names
  import opened SessionStore

  /** The region dict `{'x', 'y', 'width', 'height'}` handed to the grabber. */
  datatype Region = Region(x: int, y: int, width: int, height: int)

  /** The rectangle's canvas coordinates: the press point and the latest drag
      point. */
  datatype Corners = Corners(x1: int, y1: int, x2: int, y2: int)

  function Min(a: int, b: int): int {
    if a <= b then a else b
  }

  function Abs(a: int): int {
    if a < 0 then -a else a
  }

  /** The release rule (lines 548-552 and 808-812): the origin is the smaller
      coordinate of the two corners, the size their absolute difference. The
      region therefore spans exactly from one corner to the other. */
  function Normalize(c: Corners): (r: Region)
    ensures r.width >= 0 && r.height >= 0
    ensures (r.x == c.x1 && r.x + r.width == c.x2) || (r.x == c.x2 && r.x + r.width == c.x1)
    ensures (r.y == c.y1 && r.y + r.height == c.y2) || (r.y == c.y2 && r.y + r.height == c.y1)
  {
    Region(Min(c.x1, c.x2), Min(c.y1, c.y2), Abs(c.x2 - c.x1), Abs(c.y2 - c.y1))
  }

  /** Dragging from either end, or along either diagonal, selects the same
      region. */
  lemma NormalizeSymmetric(c: Corners)
    ensures Normalize(Corners(c.x2, c.y2, c.x1, c.y1)) == Normalize(c)
    ensures Normalize(Corners(c.x1, c.y2, c.x2, c.y1)) == Normalize(c)
  {
  }

  /** The region is the smallest box holding both corners: it holds them,
      and any box with its origin at or before both corners and its far edge
      at or past both is at least as wide and as high. */
  lemma NormalizeIsBoundingBox(c: Corners, b: Region)
    requires b.x <= c.x1 && b.x <= c.x2 && c.x1 <= b.x + b.width && c.x2 <= b.x + b.width
    requires b.y <= c.y1 && b.y <= c.y2 && c.y1 <= b.y + b.height && c.y2 <= b.y + b.height
    ensures var r := Normalize(c);
      && r.x <= c.x1 && r.x <= c.x2 && c.x1 <= r.x + r.width && c.x2 <= r.x + r.width
      && b.x <= r.x && r.width <= b.width && b.y <= r.y && r.height <= b.height
  {
  }

  /** The threshold both overlays apply before capturing (lines 554, 814). */
  predicate Large(r: Region) {
    r.width > 10 && r.height > 10
  }

  /** What a capture reports: the file written, or the error text. */
  datatype CaptureResult =
    | Captured(filepath: Path, filename: string, region: Region)
    | CaptureFailed(error: string)

  /** `f"region_screenshot_{timestamp}.png"`, saved in the capture root. */
  function RegionFileName(now: Moment): (r: string)
    ensures IsPng(r) && StartsWith(r, "region_screenshot_")
  {
    var r := "region_screenshot_" + Stamp(now) + ".png";
    assert r[..18] == "region_screenshot_";
    assert r[|r| - 4..] == ".png";
    r
  }

  /** The reply of capture_region_screenshot (lines 404-436) when the grabber
      succeeds (failure == None) or raises with a message. */
  function CaptureReply(region: Region, now: Moment, failure: Option<string>): (r: CaptureResult)
    ensures r.Captured? <==> failure.None?
    ensures r.Captured? ==> r.filepath == Path(Root, r.filename) && r.region == region && IsPng(r.filename)
  {
    if failure.None? then Captured(Path(Root, RegionFileName(now)), RegionFileName(now), region)
    else CaptureFailed("Error capturing region screenshot: " + failure.value)
  }

  /** The files after a capture attempt: one image in the root on success,
      nothing on failure. */
  function AfterCapture(files: seq<Path>, now: Moment, failure: Option<string>): seq<Path> {
    if failure.None? then Add(files, Path(Root, RegionFileName(now))) else files
  }

  /** capture_region_screenshot: grab the region into the capture root. */
  method CaptureRegion(store: Store, region: Region, now: Moment, failure: Option<string>)
    returns (result: CaptureResult)
    requires store.Valid()
    modifies store
    ensures store.Valid() && store.folders == old(store.folders)
    ensures store.files == AfterCapture(old(store.files), now, failure)
    ensures result == CaptureReply(region, now, failure)
  {
    if failure.Some? {
      return CaptureFailed("Error capturing region screenshot: " + failure.value);
    }
    var name := RegionFileName(now);
    store.Write(Path(Root, name));
    return Captured(Path(Root, name), name, region);
  }

  // ------------------------------------------------------------------
  // The mailbox (lines 594-605)

  datatype MailboxReply = Delivered(result: CaptureResult) | NoResult(error: string)

  /** `last_capture_result`: one slot, overwritten by each capture, emptied by
      each read. */
  class Mailbox {
    var slot: Option<CaptureResult>

    constructor ()
      ensures slot == None
    {
      slot := None;
    }

    /** `last_capture_result = ...`: a new result replaces any unread one. */
    method Put(result: CaptureResult)
      modifies this
      ensures slot == Some(result)
    {
      slot := Some(result);
    }

    /** get_last_capture_result: hand out the stored result and clear the
        slot; with nothing stored, report that. Either way the slot is empty
        afterwards, so a second read in a row always reports nothing. */
    method Take() returns (reply: MailboxReply)
      modifies this
      ensures old(slot).Some? ==> reply == Delivered(old(slot).value)
      ensures old(slot).None? ==> reply == NoResult("No capture result available")
      ensures slot == None
    {
      if slot.Some? {
        reply := Delivered(slot.value);
        slot := None;
      } else {
        reply := NoResult("No capture result available");
      }
    }
  }

  // ------------------------------------------------------------------
  // The selection overlays (lines 503-592 and 745-904)

  /** The two overlays: the system one (lines 503-592) runs its window on a
      plain thread and captures through capture_region_screenshot; the
      visual one (lines 745-904) captures inline. */
  datatype OverlayKind = SystemOverlay | VisualOverlay

  /** What releasing the mouse leaves behind: the files, the mailbox slot and
      whether the overlay window is still open. */
  datatype Release = Release(files: seq<Path>, slot: Option<CaptureResult>, open: bool)

  /** The release as the code behaves. A rectangle whose sides both exceed
      ten pixels is captured, so the image is written on a successful grab.
      The visual overlay then stores a success (and nothing on failure) and
      closes; so does any overlay on a small rectangle. The system overlay's
      capture_region_screenshot ends in `jsonify`, on both its paths
      (lines 431 and 436), and the overlay thread has no Flask application
      context, so that call raises: lines 561 and 563 are never reached, the
      mailbox keeps what it had and the window stays open. Without a
      rectangle the system overlay closes and the visual one stays. */
  function Released(kind: OverlayKind, rect: Option<Corners>, files: seq<Path>, slot: Option<CaptureResult>,
                    now: Moment, failure: Option<string>): (r: Release)
    ensures r.files == if rect.Some? && Large(Normalize(rect.value)) then AfterCapture(files, now, failure) else files
    ensures kind == SystemOverlay ==> r.slot == slot && (r.open <==> rect.Some? && Large(Normalize(rect.value)))
    ensures kind == VisualOverlay ==> (r.open <==> rect.None?)
    ensures kind == VisualOverlay && rect.Some? && Large(Normalize(rect.value)) && failure.None? ==>
      r.slot == Some(CaptureReply(Normalize(rect.value), now, failure))
    ensures kind == VisualOverlay && !(rect.Some? && Large(Normalize(rect.value)) && failure.None?) ==> r.slot == slot
  {
    if rect.None? then Release(files, slot, kind == VisualOverlay)
    else
      var region := Normalize(rect.value);
      if !Large(region) then Release(files, slot, false)
      else
        var after := AfterCapture(files, now, failure);
        match kind
        case SystemOverlay => Release(after, slot, true)
        case VisualOverlay =>
          Release(after, if failure.None? then Some(CaptureReply(region, now, failure)) else slot, false)
  }

  /** The release the system overlay evidently intends: the capture reply,
      success or failure, goes to the mailbox and the window closes. On
      everything else it is the release as written. */
  function IntendedRelease(kind: OverlayKind, rect: Option<Corners>, files: seq<Path>, slot: Option<CaptureResult>,
                           now: Moment, failure: Option<string>): (r: Release)
    ensures r.open <==> kind == VisualOverlay && rect.None?
    ensures kind == SystemOverlay && rect.Some? && Large(Normalize(rect.value)) ==>
      r.files == AfterCapture(files, now, failure) && r.slot == Some(CaptureReply(Normalize(rect.value), now, failure))
    ensures kind == VisualOverlay || rect.None? || !Large(Normalize(rect.value)) ==>
      r == Released(kind, rect, files, slot, now, failure)
  {
    if kind == SystemOverlay && rect.Some? && Large(Normalize(rect.value)) then
      var region := Normalize(rect.value);
      Release(AfterCapture(files, now, failure), Some(CaptureReply(region, now, failure)), false)
    else Released(kind, rect, files, slot, now, failure)
  }

  /** A system-overlay drag from (0, 0) to (100, 100) with a working grabber:
      as written the image is saved but the mailbox stays empty and the
      window stays open; as intended the frontend gets the capture and the
      window closes. */
  lemma SystemDragLosesCapture(now: Moment)
    ensures var r := Released(SystemOverlay, Some(Corners(0, 0, 100, 100)), [], None, now, None);
      && Path(Root, RegionFileName(now)) in r.files && r.slot == None && r.open
    ensures var r := IntendedRelease(SystemOverlay, Some(Corners(0, 0, 100, 100)), [], None, now, None);
      && Path(Root, RegionFileName(now)) in r.files
      && r.slot == Some(Captured(Path(Root, RegionFileName(now)), RegionFileName(now), Region(0, 0, 100, 100)))
      && !r.open
  {
    assert Normalize(Corners(0, 0, 100, 100)) == Region(0, 0, 100, 100);
  }

  /** One full-screen overlay: the press point, the rubber-band rectangle
      once a press has drawn it, and whether the window is still open. */
  class Overlay {
    const kind: OverlayKind
    var startX: int
    var startY: int
    var rect: Option<Corners>
    var open: bool

    constructor (kind: OverlayKind)
      ensures this.kind == kind && startX == 0 && startY == 0 && rect == None && open
    {
      this.kind := kind;
      startX, startY := 0, 0;
      rect := None;
      open := true;
    }

    /** on_mouse_down: remember the press point and draw a zero-size
        rectangle there, replacing any previous one. */
    method MouseDown(x: int, y: int)
      requires open
      modifies this
      ensures startX == x && startY == y && rect == Some(Corners(x, y, x, y)) && open
    {
      startX, startY := x, y;
      rect := Some(Corners(x, y, x, y));
    }

    /** on_mouse_move: stretch the rectangle from the press point to the
        mouse; without a rectangle nothing happens. */
    method MouseMove(x: int, y: int)
      requires open
      modifies this
      ensures startX == old(startX) && startY == old(startY) && open
      ensures rect == if old(rect).Some? then Some(Corners(startX, startY, x, y)) else None
    {
      if rect.Some? {
        rect := Some(Corners(startX, startY, x, y));
      }
    }

    /** on_escape: close without capturing. */
    method Escape()
      requires open
      modifies this
      ensures !open && rect == old(rect) && startX == old(startX) && startY == old(startY)
    {
      open := false;
    }

    /** on_mouse_up: normalise the rectangle as last drawn and capture it
        only when both sides exceed ten pixels; what follows is the release
        as written, see Released. */
    method MouseUp(store: Store, mailbox: Mailbox, now: Moment, failure: Option<string>)
      requires open && store.Valid()
      modifies this, store, mailbox
      ensures store.Valid() && store.folders == old(store.folders)
      ensures rect == old(rect) && startX == old(startX) && startY == old(startY)
      ensures Release(store.files, mailbox.slot, open)
        == Released(kind, old(rect), old(store.files), old(mailbox.slot), now, failure)
    {
      if rect.Some? {
        var region := Normalize(rect.value);
        if Large(region) {
          var result := CaptureRegion(store, region, now, failure);
          if kind == VisualOverlay {
            if result.Captured? {
              mailbox.Put(result);
            }
            open := false;
          }
        } else {
          open := false;
        }
      } else if kind == SystemOverlay {
        open := false;
      }
    }
  }

  // ------------------------------------------------------------------
  // Recording (lines 906-959)

  datatype RecordReply = RecordOk(message: string) | RecordFailed(error: string)

  /** `f"{current_app}"`: Python renders a missing application as `None`. */
  function AppLabel(app: Option<string>): string {
    if app.Some? then app.value else "None"
  }

  /** `f"recording_{current_app}_{timestamp}.png"` with the millisecond
      timestamp. */
  function FrameName(app: Option<string>, now: Moment): (r: string)
    ensures IsPng(r) && StartsWith(r, "recording_")
  {
    var r := "recording_" + AppLabel(app) + "_" + MilliStamp(now) + ".png";
    assert r[..10] == "recording_";
    assert r[|r| - 4..] == ".png";
    r
  }

  /** One pass of the recording loop: the clock reading and whether the grab
      succeeded. */
  datatype Frame = Frame(now: Moment, grabbed: bool)

  /** The frames the loop gets through: all of them up to and excluding the
      first failed grab. */
  function Written(frames: seq<Frame>): (n: nat)
    ensures n <= |frames|
    ensures forall k :: 0 <= k < n ==> frames[k].grabbed
    ensures n < |frames| ==> !frames[n].grabbed
  {
    if frames == [] || !frames[0].grabbed then 0 else 1 + Written(frames[1..])
  }

  lemma {:induction false} WrittenIs(frames: seq<Frame>, i: nat)
    requires i <= |frames| && forall k :: 0 <= k < i ==> frames[k].grabbed
    requires i == |frames| || !frames[i].grabbed
    ensures Written(frames) == i
    decreases i
  {
    if i > 0 {
      WrittenIs(frames[1..], i - 1);
    }
  }

  /** The file names of the frames, in order. */
  function FrameNames(app: Option<string>, frames: seq<Frame>): (r: seq<string>)
    ensures |r| == |frames|
    ensures forall k :: 0 <= k < |r| ==> r[k] == FrameName(app, frames[k].now)
  {
    seq(|frames|, k requires 0 <= k < |frames| => FrameName(app, frames[k].now))
  }

  /** The files after the first count of names have been written to the
      root. */
  function RecordedFiles(files: seq<Path>, names: seq<string>, count: nat): seq<Path>
    requires count <= |names|
    decreases count
  {
    if count == 0 then files
    else Add(RecordedFiles(files, names, count - 1), Path(Root, names[count - 1]))
  }

  /** The recording loop keeps every file and only adds frame images to the
      root. */
  lemma RecordingAddsOnlyFrames(files: seq<Path>, app: Option<string>, frames: seq<Frame>)
    ensures var after := RecordedFiles(files, FrameNames(app, frames), Written(frames));
      && (forall p :: p in files ==> p in after)
      && (forall p :: p in after && p !in files ==> p.dir == Root && IsPng(p.name) && StartsWith(p.name, "recording_"))
  {
    RecordedKeepsAndAdds(files, FrameNames(app, frames), Written(frames));
  }

  lemma {:induction false} RecordedKeepsAndAdds(files: seq<Path>, names: seq<string>, count: nat)
    requires count <= |names|
    requires forall k :: 0 <= k < |names| ==> IsPng(names[k]) && StartsWith(names[k], "recording_")
    ensures forall p :: p in files ==> p in RecordedFiles(files, names, count)
    ensures forall p :: p in RecordedFiles(files, names, count) && p !in files ==>
      p.dir == Root && IsPng(p.name) && StartsWith(p.name, "recording_")
    decreases count
  {
    if count > 0 {
      RecordedKeepsAndAdds(files, names, count - 1);
    }
  }

  /** `recording` and `current_app`. */
  class Recorder {
    var recording: bool
    var currentApp: Option<string>

    constructor ()
      ensures !recording && currentApp == None
    {
      recording := false;
      currentApp := None;
    }

    /** start_recording: refused while recording, leaving the current
        application as it was; otherwise both are set. */
    method Start(application: Option<string>) returns (reply: RecordReply)
      modifies this
      ensures old(recording) ==> reply == RecordFailed("Already recording") && recording && currentApp == old(currentApp)
      ensures !old(recording) ==> reply == RecordOk("Recording started") && recording && currentApp == application
    {
      if recording {
        return RecordFailed("Already recording");
      }
      currentApp := application;
      recording := true;
      return RecordOk("Recording started");
    }

    /** stop_recording: always succeeds and clears the flag, whatever it
        was, so stopping twice is the same as stopping once. */
    method Stop() returns (reply: RecordReply)
      modifies this
      ensures !recording && currentApp == old(currentApp) && reply == RecordOk("Recording stopped")
    {
      recording := false;
      return RecordOk("Recording stopped");
    }

    /** recording_loop over the frames that arrive before anyone stops the
        recording: each pass writes `recording_{app}_{stamp}.png` to the
        root; the first failed grab clears the flag and ends the loop. */
    method RecordingLoop(store: Store, frames: seq<Frame>)
      requires store.Valid()
      modifies this, store
      ensures store.Valid() && store.folders == old(store.folders) && currentApp == old(currentApp)
      ensures !old(recording) ==> store.files == old(store.files) && !recording
      ensures old(recording) ==>
        && store.files == RecordedFiles(old(store.files), FrameNames(currentApp, frames), Written(frames))
        && recording == (Written(frames) == |frames|)
    {
      var names := FrameNames(currentApp, frames);
      WriteFrames(store, frames, names);
    }

    /** The loop itself, given the name each pass would write. */
    method WriteFrames(store: Store, frames: seq<Frame>, names: seq<string>)
      requires store.Valid() && |names| == |frames|
      modifies this, store
      ensures store.Valid() && store.folders == old(store.folders) && currentApp == old(currentApp)
      ensures !old(recording) ==> store.files == old(store.files) && !recording
      ensures old(recording) ==>
        && store.files == RecordedFiles(old(store.files), names, Written(frames))
        && recording == (Written(frames) == |frames|)
    {
      ghost var start := recording;
      var i := 0;
      while recording && i < |frames|
        invariant 0 <= i <= |frames|
        invariant store.Valid() && store.folders == old(store.folders) && currentApp == old(currentApp)
        invariant !start ==> i == 0 && !recording && store.files == old(store.files)
        invariant forall k :: 0 <= k < i ==> frames[k].grabbed
        invariant start && !recording ==> i < |frames| && !frames[i].grabbed
        invariant start ==> store.files == RecordedFiles(old(store.files), names, i)
        decreases |frames| - i
      {
        if !frames[i].grabbed {
          recording := false;
          break;
        }
        store.Write(Path(Root, names[i]));
        i := i + 1;
      }
      if start {
        WrittenIs(frames, i);
      }
    }
  }
}

=== FILE: locator.dfy ===
/** Finding and focusing the target application's window before a region is
    selected: the keyword match of `focus_window`, the window list of
    `get_windows` and the strategy list of `start_region_selection`. The
    operating system's window list is a parameter: the windows in the order
    the enumeration reports them, unchanged while one request is served.
    Restoring, raising and activating the chosen window are calls into the
    operating system and are not modelled. */
module WindowLocator {
  import opened Optional
  import opened Names
  import opened Ordering

  // ------------------------------------------------------------------
  // Case folding

  /** `str.lower()` on one character; only the ASCII letters are folded. */
  function LowerChar(c: char): (l: char)
    ensures !('A' <= l <= 'Z')
    ensures 'A' <= c <= 'Z' || l == c
  {
    if 'A' <= c <= 'Z' then (c as int + 32) as char else c
  }

  function Lower(s: string): (r: string)
    ensures |r| == |s| && forall i :: 0 <= i < |s| ==> r[i] == LowerChar(s[i])
  {
    seq(|s|, i requires 0 <= i < |s| => LowerChar(s[i]))
  }

  // ------------------------------------------------------------------
  // focus_window (desktop_app.py, lines 134-202)

  datatype Window = Window(handle: int, title: string, visible: bool)

  /** The enumeration callback's test: the window is visible, has a title,
      and some keyword occurs in that title, ignoring case. */
  predicate Matches(w: Window, keywords: seq<string>) {
    w.visible && w.title != "" &&
    exists k :: 0 <= k < |keywords| && Contains(Lower(w.title), Lower(keywords[k]))
  }

  /** With a single keyword the test is that keyword's containment. */
  lemma OneKeyword(w: Window, keyword: string)
    ensures Matches(w, [keyword]) <==> w.visible && w.title != "" && Contains(Lower(w.title), Lower(keyword))
  {
    assert [keyword][0] == keyword;
  }

  /** `found_windows` once the enumeration is over: the matching windows, in
      enumeration order. */
  function Matching(windows: seq<Window>, keywords: seq<string>): (r: seq<Window>)
    ensures forall w :: w in r <==> w in windows && Matches(w, keywords)
    decreases |windows|
  {
    if windows == [] then []
    else
      var n := |windows| - 1;
      assert windows == windows[..n] + [windows[n]];
      var init := Matching(windows[..n], keywords);
      if Matches(windows[n], keywords) then init + [windows[n]] else init
  }

  datatype FocusReply = Focused(handle: int, title: string) | NoWindow

  /** What `focus_window` reports: the first matching window, if any. */
  function FocusResult(windows: seq<Window>, keywords: seq<string>): FocusReply {
    var found := Matching(windows, keywords);
    if found == [] then NoWindow else Focused(found[0].handle, found[0].title)
  }

  method FocusWindow(windows: seq<Window>, keywords: seq<string>) returns (reply: FocusReply)
    ensures reply == FocusResult(windows, keywords)
  {
    var found: seq<Window> := [];
    for i := 0 to |windows|
      invariant found == Matching(windows[..i], keywords)
    {
      assert windows[..i + 1][..i] == windows[..i];
      if Matches(windows[i], keywords) {
        found := found + [windows[i]];
      }
    }
    assert windows[..|windows|] == windows;
    if found == [] {
      reply := NoWindow;
    } else {
      reply := Focused(found[0].handle, found[0].title);
    }
  }

  lemma NothingMatchesNothingFound(windows: seq<Window>, keywords: seq<string>)
    requires forall j :: 0 <= j < |windows| ==> !Matches(windows[j], keywords)
    ensures Matching(windows, keywords) == []
  {
  }

  /** `focus_window` reports no window exactly when no window matches, and
      otherwise the earliest matching window in enumeration order. */
  lemma {:induction false} FocusResultIsEarliestMatch(windows: seq<Window>, keywords: seq<string>, i: nat)
    requires i < |windows| && Matches(windows[i], keywords)
    requires forall j :: 0 <= j < i ==> !Matches(windows[j], keywords)
    ensures FocusResult(windows, keywords) == Focused(windows[i].handle, windows[i].title)
    decreases |windows|
  {
    var n := |windows| - 1;
    if i == n {
      NothingMatchesNothingFound(windows[..n], keywords);
    } else {
      FocusResultIsEarliestMatch(windows[..n], keywords, i);
    }
  }

  lemma FocusResultNoWindow(windows: seq<Window>, keywords: seq<string>)
    ensures FocusResult(windows, keywords) == NoWindow <==> forall w :: w in windows ==> !Matches(w, keywords)
  {
    if FocusResult(windows, keywords) == NoWindow {
      assert Matching(windows, keywords) == [];
    } else {
      assert Matching(windows, keywords)[0] in Matching(windows, keywords);
    }
  }

  // ------------------------------------------------------------------
  // get_windows (desktop_app.py, lines 249-278)

  function LowerTitle(w: Window): string {
    Lower(w.title)
  }

  /** The windows the listing callback keeps: visible and titled. */
  function Titled(windows: seq<Window>): (r: seq<Window>)
    ensures forall w :: w in r <==> w in windows && w.visible && w.title != ""
    decreases |windows|
  {
    if windows == [] then []
    else
      var n := |windows| - 1;
      assert windows == windows[..n] + [windows[n]];
      var w := windows[n];
      if w.visible && w.title != "" then Titled(windows[..n]) + [w] else Titled(windows[..n])
  }

  /** The listing: titled windows by lower-cased title, the first fifty. */
  function WindowList(windows: seq<Window>): seq<Window> {
    Take(SortBy(Titled(windows), LowerTitle), 50)
  }

  method GetWindows(windows: seq<Window>) returns (listed: seq<Window>)
    ensures listed == WindowList(windows)
    ensures |listed| <= 50 && SortedBy(listed, LowerTitle)
    ensures forall w :: w in listed ==> w in windows && w.visible && w.title != ""
  {
    var found: seq<Window> := [];
    for i := 0 to |windows|
      invariant found == Titled(windows[..i])
    {
      assert windows[..i + 1][..i] == windows[..i];
      var w := windows[i];
      if w.visible && w.title != "" {
        found := found + [w];
      }
    }
    assert windows[..|windows|] == windows;
    var sorted := SortBy(found, LowerTitle);
    SortBySorted(found, LowerTitle);
    listed := Take(sorted, 50);
    forall w | w in listed ensures w in windows && w.visible && w.title != "" {
      assert w in sorted;
      assert w in multiset(found);
    }
  }

  // ------------------------------------------------------------------
  // start_region_selection (desktop_app.py, lines 318-402)

  predicate IsSep(c: char) {
    c == '/' || c == '\\'
  }

  /** The index of the last path separator in s, or -1 when there is none. */
  function LastSep(s: string): (i: int)
    ensures -1 <= i < |s|
    ensures 0 <= i ==> IsSep(s[i])
    ensures forall k :: i < k < |s| ==> !IsSep(s[k])
  {
    if s == [] then -1 else if IsSep(s[|s| - 1]) then |s| - 1 else LastSep(s[..|s| - 1])
  }

  /** What follows the last path separator. */
  function AfterLastSep(s: string): (r: string)
    ensures EndsWith(s, r) && forall i :: 0 <= i < |r| ==> !IsSep(r[i])
    ensures |r| < |s| ==> IsSep(s[|s| - |r| - 1])
  {
    var k := LastSep(s);
    var r := s[k + 1..];
    assert forall i :: 0 <= i < |r| ==> r[i] == s[k + 1 + i];
    r
  }

  /** `os.path.basename` on Windows: a leading drive such as `C:` is split off
      first, then what follows the last `\` or `/` is kept. */
  function BaseName(path: string): string {
    AfterLastSep(if |path| >= 2 && !IsSep(path[0]) && path[1] == ':' then path[2..] else path)
  }

  /** `exe_name`: the base name with `.exe` removed. */
  function ExeName(application: string): string {
    RemoveAll(BaseName(application), ".exe")
  }

  /** `app_name`: `.exe` removed once more from `exe_name`. */
  function AppName(application: string): string {
    RemoveAll(ExeName(application), ".exe")
  }

  /** A family of applications whose windows carry well-known titles. */
  datatype Family = SqlServer | Chrome | Firefox | Other

  /** The family tests, in the order they are tried. */
  function FamilyOf(application: string): Family {
    if Contains(application, "SSMS") || Contains(Lower(application), "sql") then SqlServer
    else if Contains(Lower(application), "chrome") then Chrome
    else if Contains(Lower(application), "firefox") then Firefox
    else Other
  }

  /** The extra keyword lists tried for a family. */
  function Aliases(family: Family): (r: seq<seq<string>>)
    ensures |r| <= 4 && forall k :: 0 <= k < |r| ==> |r[k]| == 1
  {
    match family
    case SqlServer =>
      [["Microsoft SQL Server Management Studio"], ["SQL Server Management Studio"], ["SSMS"], ["Management Studio"]]
    case Chrome => [["Chrome"], ["Google Chrome"], ["chrome.exe"]]
    case Firefox => [["Firefox"], ["Mozilla Firefox"], ["firefox.exe"]]
    case Other => []
  }

  /** The keyword lists tried in turn, built from the application as given
      and the two names derived from it: the application, each name in its
      own case, each name lower-cased, then the aliases of the first known
      family the path mentions. */
  function Strategies(application: string, exe: string, name: string): (r: seq<seq<string>>)
    ensures 5 <= |r| <= 9 && forall k :: 0 <= k < |r| ==> |r[k]| == 1
    ensures r[0] == [application] && r[1] == [exe] && r[2] == [name]
    ensures r[3] == [Lower(exe)] && r[4] == [Lower(name)]
    ensures r[5..] == Aliases(FamilyOf(application))
  {
    [[application], [exe], [name], [Lower(exe)], [Lower(name)]] + Aliases(FamilyOf(application))
  }

  /** `focus_strategies` for an application. */
  function FocusStrategies(application: string): seq<seq<string>> {
    Strategies(application, ExeName(application), AppName(application))
  }

  /** The SQL Server test comes first: a path that mentions both SQL and
      Chrome gets the SQL Server aliases only. */
  lemma SqlAliasesWin(application: string)
    requires Contains(Lower(application), "sql")
    ensures FamilyOf(application) == SqlServer
  {
  }

  /** The title reported by the first strategy that focuses a window. */
  function FirstFocused(windows: seq<Window>, strategies: seq<seq<string>>): (r: Option<string>)
    ensures r.None? <==> forall k :: 0 <= k < |strategies| ==> FocusResult(windows, strategies[k]) == NoWindow
    decreases |strategies|
  {
    if strategies == [] then None
    else
      assert forall k :: 1 <= k < |strategies| ==> strategies[1..][k - 1] == strategies[k];
      match FocusResult(windows, strategies[0])
      case Focused(_, title) => Some(title)
      case NoWindow => FirstFocused(windows, strategies[1..])
  }

  /** The strategies are tried in order and the first that focuses a window
      wins: the reported title is that strategy's, and every strategy before
      it found no window. */
  lemma {:induction false} FirstFocusedWinner(windows: seq<Window>, strategies: seq<seq<string>>) returns (k: nat)
    requires FirstFocused(windows, strategies).Some?
    ensures k < |strategies| && FocusResult(windows, strategies[k]).Focused?
    ensures FocusResult(windows, strategies[k]).title == FirstFocused(windows, strategies).value
    ensures forall j :: 0 <= j < k ==> FocusResult(windows, strategies[j]) == NoWindow
    decreases |strategies|
  {
    if FocusResult(windows, strategies[0]).Focused? {
      k := 0;
    } else {
      var rest := strategies[1..];
      var k' := FirstFocusedWinner(windows, rest);
      k := k' + 1;
      assert rest[k'] == strategies[k];
      forall j | 0 < j < k ensures FocusResult(windows, strategies[j]) == NoWindow {
        assert rest[j - 1] == strategies[j];
      }
    }
  }

  /** A focused title always belongs to a window that one of the strategies
      matches. */
  lemma {:induction false} FirstFocusedIsMatch(windows: seq<Window>, strategies: seq<seq<string>>)
    ensures FirstFocused(windows, strategies).Some? ==>
      exists k, w :: 0 <= k < |strategies| && w in windows && Matches(w, strategies[k]) &&
        w.title == FirstFocused(windows, strategies).value
    decreases |strategies|
  {
    if strategies != [] {
      var found := Matching(windows, strategies[0]);
      if found != [] {
        assert found[0] in found;
      } else {
        FirstFocusedIsMatch(windows, strategies[1..]);
        if FirstFocused(windows, strategies).Some? {
          var k, w :| 0 <= k < |strategies[1..]| && w in windows && Matches(w, strategies[1..][k]) &&
            w.title == FirstFocused(windows, strategies[1..]).value;
          assert strategies[1..][k] == strategies[k + 1];
        }
      }
    }
  }

  datatype SelectionReply =
    | Ready(application: Option<string>, windowFocused: bool, focusedWindow: Option<string>)
    | SelectionFailed

  /** The reply as the code is written. With no application (or an empty
      one) the focusing block is skipped, `window_focused` is never bound,
      and building the reply raises: the caller gets a failure. */
  function Selection(application: Option<string>, windows: seq<Window>): SelectionReply {
    if application.None? || application.value == "" then SelectionFailed
    else
      var focused := FirstFocused(windows, FocusStrategies(application.value));
      Ready(application, focused.Some?, focused)
  }

  /** The reply the code evidently intends: without an application nothing
      is focused, and selection is still ready. */
  function IntendedSelection(application: Option<string>, windows: seq<Window>): (r: SelectionReply)
    ensures r.Ready? && r.application == application
    ensures r.windowFocused <==> r.focusedWindow.Some?
    ensures application.Some? && application.value != "" ==> r == Selection(application, windows)
  {
    if application.None? || application.value == "" then Ready(application, false, None)
    else Selection(application, windows)
  }

  /** The two differ exactly on a missing or empty application. */
  lemma MissingApplicationFails(windows: seq<Window>)
    ensures Selection(None, windows) == SelectionFailed
    ensures Selection(Some(""), windows) == SelectionFailed
    ensures IntendedSelection(Some(""), windows) == Ready(Some(""), false, None)
  {
  }

  /** With one window list serving every enumeration of a request, once
      every strategy has failed no listed window can pass the fallback's
      test: that test is strategies 1 and 2 again, on the same windows. */
  lemma FallbackNeverFocuses(windows: seq<Window>, strategies: seq<seq<string>>, exe: string, name: string, w: Window)
    requires |strategies| > 2 && strategies[1] == [exe] && strategies[2] == [name]
    requires FirstFocused(windows, strategies) == None
    requires w in windows && w.visible && w.title != ""
    ensures !Contains(Lower(w.title), Lower(exe)) && !Contains(Lower(w.title), Lower(name))
  {
    StrategyFailed(windows, strategies, 1);
    StrategyFailed(windows, strategies, 2);
    KeywordNotFound(windows, exe, w);
    KeywordNotFound(windows, name, w);
  }

  lemma StrategyFailed(windows: seq<Window>, strategies: seq<seq<string>>, k: nat)
    requires k < |strategies| && FirstFocused(windows, strategies) == None
    ensures FocusResult(windows, strategies[k]) == NoWindow
  {
  }

  /** A keyword no window matches occurs in no listed title. */
  lemma KeywordNotFound(windows: seq<Window>, keyword: string, w: Window)
    requires FocusResult(windows, [keyword]) == NoWindow
    requires w in windows && w.visible && w.title != ""
    ensures !Contains(Lower(w.title), Lower(keyword))
  {
    FocusResultNoWindow(windows, [keyword]);
    OneKeyword(w, keyword);
  }

  /** If a visible, titled window mentions the executable's name, some window
      is focused: not necessarily that one, since an earlier strategy may win. */
  lemma FocusedByExeName(application: string, windows: seq<Window>, w: Window)
    requires application != ""
    requires w in windows && w.visible && w.title != "" && Contains(Lower(w.title), Lower(ExeName(application)))
    ensures Selection(Some(application), windows).windowFocused
  {
    if FirstFocused(windows, FocusStrategies(application)) == None {
      var strategies := FocusStrategies(application);
      assert strategies[1] == [ExeName(application)] && strategies[2] == [AppName(application)];
      FallbackNeverFocuses(windows, strategies, ExeName(application), AppName(application), w);
    }
  }

  method StartRegionSelection(application: Option<string>, windows: seq<Window>) returns (reply: SelectionReply)
    ensures reply == Selection(application, windows)
  {
    if application.None? || application.value == "" {
      return SelectionFailed;
    }
    var app := application.value;
    var exe := ExeName(app);
    var name := AppName(app);
    var strategies := Strategies(app, exe, name);
    var focusedWindow := TryStrategies(windows, strategies);
    var focused := focusedWindow.Some?;
    if !focused {
      focused, focusedWindow := LastResort(windows, strategies, exe, name);
    }
    reply := Ready(application, focused, focusedWindow);
  }

  /** The strategy loop: `focus_window` with each keyword list in turn,
      stopping at the first that focuses a window. */
  method TryStrategies(windows: seq<Window>, strategies: seq<seq<string>>) returns (focusedWindow: Option<string>)
    ensures focusedWindow == FirstFocused(windows, strategies)
  {
    focusedWindow := None;
    var i := 0;
    while i < |strategies|
      invariant 0 <= i <= |strategies|
      invariant FirstFocused(windows, strategies) == FirstFocused(windows, strategies[i..])
    {
      var result := FocusWindow(windows, strategies[i]);
      if result.Focused? {
        return Some(result.title);
      }
      assert strategies[i..][1..] == strategies[i + 1..];
      i := i + 1;
    }
  }

  /** The last resort once every strategy has failed: scan the window list
      for a title that mentions the executable's name or the application's
      name and try to focus that title. On the same window list the
      strategies saw, it focuses nothing. */
  method LastResort(windows: seq<Window>, strategies: seq<seq<string>>, exe: string, name: string)
    returns (focused: bool, focusedWindow: Option<string>)
    requires |strategies| > 2 && strategies[1] == [exe] && strategies[2] == [name]
    requires FirstFocused(windows, strategies) == None
    ensures !focused && focusedWindow == None
  {
    focused, focusedWindow := false, None;
    var listed := GetWindows(windows);
    var j := 0;
    while j < |listed|
      invariant !focused && focusedWindow == None
    {
      var w := listed[j];
      var title := Lower(w.title);
      FallbackNeverFocuses(windows, strategies, exe, name, w);
      if Contains(title, Lower(exe)) || Contains(title, Lower(name)) {
        var result := FocusWindow(windows, [w.title]);
        if result.Focused? {
          focused := true;
          focusedWindow := Some(w.title);
          break;
        }
      }
      j := j + 1;
    }
  }
}

=== FILE: names.dfy ===
/** How the session store names things: the folder name derived from an
    application's display name, the screenshot file name derived from an
    operator-supplied step name, the timestamps written into file names, and
    the few pieces of path syntax (stem, suffix, the `{name}_*.png` pattern)
    that deduplication relies on. Strings are sequences of characters; upper
    and lower case are distinct everywhere in this module. */
module Names {

  // ------------------------------------------------------------------
  // String helpers

  predicate StartsWith(s: string, prefix: string) {
    |prefix| <= |s| && s[..|prefix|] == prefix
  }

  predicate EndsWith(s: string, suffix: string) {
    |suffix| <= |s| && s[|s| - |suffix|..] == suffix
  }

  /** Python's `needle in hay` for strings: needle occurs at some position. */
  predicate Contains(hay: string, needle: string)
    decreases |hay|
  {
    StartsWith(hay, needle) || (hay != [] && Contains(hay[1..], needle))
  }

  lemma {:induction false} ContainsAt(hay: string, needle: string, i: nat)
    requires i + |needle| <= |hay| && hay[i..i + |needle|] == needle
    ensures Contains(hay, needle)
    decreases i
  {
    if i > 0 {
      assert hay[1..][i - 1..i - 1 + |needle|] == hay[i..i + |needle|];
      ContainsAt(hay[1..], needle, i - 1);
    } else {
      assert hay[..|needle|] == hay[0..|needle|];
    }
  }

  lemma {:induction false} ContainsWitness(hay: string, needle: string) returns (i: nat)
    requires Contains(hay, needle)
    ensures i + |needle| <= |hay| && hay[i..i + |needle|] == needle
    decreases |hay|
  {
    if StartsWith(hay, needle) {
      i := 0;
    } else {
      var j := ContainsWitness(hay[1..], needle);
      assert hay[1..][j..j + |needle|] == hay[j + 1..j + 1 + |needle|];
      i := j + 1;
    }
  }

  // ------------------------------------------------------------------
  // Application folder names (desktop_app.py, lines 460-461, repeated at
  // 611-612, 694-695, 1095-1096 and 1134-1135)

  /** The characters of the class `[<>:"/\\|?*]`, which are not allowed in a
      Windows file name. */
  predicate IsReserved(c: char) {
    c in {'<', '>', ':', '"', '/', '\\', '|', '?', '*'}
  }

  /** `re.sub(r'[<>:"/\\|?*]', '_', s)`: each reserved character becomes `_`,
      every other character stays where it is. This alone is what screenshot
      file names get (lines 471 and 651). */
  function ReplaceReserved(s: string): (r: string)
    ensures |r| == |s|
    ensures forall i :: 0 <= i < |s| ==> !IsReserved(r[i])
    ensures forall i :: 0 <= i < |s| ==> r[i] == s[i] || (IsReserved(s[i]) && r[i] == '_')
  {
    if s == [] then [] else [if IsReserved(s[0]) then '_' else s[0]] + ReplaceReserved(s[1..])
  }

  /** `s.replace(pat, '')`: a single left-to-right scan that drops every
      occurrence of pat not overlapping one already dropped. */
  function RemoveAll(s: string, pat: string): (r: string)
    requires pat != []
    ensures |r| <= |s|
    decreases |s|
  {
    if |s| < |pat| then s
    else if s[..|pat|] == pat then RemoveAll(s[|pat|..], pat)
    else [s[0]] + RemoveAll(s[1..], pat)
  }

  /** Removal only ever drops characters: it never introduces one. */
  lemma {:induction false} RemoveAllDropsOnly(s: string, pat: string)
    requires pat != []
    ensures forall i :: 0 <= i < |RemoveAll(s, pat)| ==> RemoveAll(s, pat)[i] in s
    decreases |s|
  {
    if |s| >= |pat| {
      if s[..|pat|] == pat {
        RemoveAllDropsOnly(s[|pat|..], pat);
        assert forall c :: c in s[|pat|..] ==> c in s;
      } else {
        RemoveAllDropsOnly(s[1..], pat);
        assert forall c :: c in s[1..] ==> c in s;
      }
    }
  }

  /** `s.replace(' ', '_')`. */
  function SpacesToUnderscores(s: string): (r: string)
    ensures |r| == |s|
    ensures forall i :: 0 <= i < |s| ==> r[i] != ' ' && (r[i] == s[i] || (s[i] == ' ' && r[i] == '_'))
  {
    if s == [] then [] else [if s[0] == ' ' then '_' else s[0]] + SpacesToUnderscores(s[1..])
  }

  /** The index of the first character at or after i that is not `_`. */
  function LeadingRunEnd(s: string, i: nat): (n: nat)
    requires i <= |s|
    ensures i <= n <= |s| && (n == |s| || s[n] != '_')
    ensures forall k :: i <= k < n ==> s[k] == '_'
    decreases |s| - i
  {
    if i < |s| && s[i] == '_' then LeadingRunEnd(s, i + 1) else i
  }

  /** The index just after the last character before j that is not `_`. */
  function TrailingRunStart(s: string, j: nat): (n: nat)
    requires j <= |s|
    ensures n <= j && (n == 0 || s[n - 1] != '_')
    ensures forall k :: n <= k < j ==> s[k] == '_'
    decreases j
  {
    if j > 0 && s[j - 1] == '_' then TrailingRunStart(s, j - 1) else j
  }

  function StripLeading(s: string): (r: string)
    ensures |r| <= |s| && r == s[|s| - |r|..]
    ensures r == [] || r[0] != '_'
    ensures forall k :: 0 <= k < |s| - |r| ==> s[k] == '_'
  {
    s[LeadingRunEnd(s, 0)..]
  }

  function StripTrailing(s: string): (r: string)
    ensures |r| <= |s| && r == s[..|r|]
    ensures r == [] || r[|r| - 1] != '_'
    ensures forall k :: |r| <= k < |s| ==> s[k] == '_'
  {
    s[..TrailingRunStart(s, |s|)]
  }

  /** `s.strip('_')`: the longest slice of s that neither starts nor ends
      with an underscore once the underscores at both ends are gone. */
  function StripUnderscores(s: string): (r: string)
    ensures |r| <= |s|
    ensures r == [] || (r[0] != '_' && r[|r| - 1] != '_')
  {
    StripTrailing(StripLeading(s))
  }

  /** Stripping removes underscores at the two ends and nothing else: the
      result is the slice of s between a run of leading and a run of
      trailing underscores. */
  lemma {:induction false} StripRemovesOnlyEdges(s: string)
    ensures var r := StripUnderscores(s); var i := |s| - |StripLeading(s)|;
      && i + |r| <= |s| && r == s[i..i + |r|]
      && (forall k :: 0 <= k < i ==> s[k] == '_')
      && (forall k :: i + |r| <= k < |s| ==> s[k] == '_')
  {
    var t := StripLeading(s);
    var r := StripTrailing(t);
    var i := |s| - |t|;
    assert t == s[i..];
    assert r == t[..|r|];
    assert r == s[i..i + |r|];
    forall k | i + |r| <= k < |s| ensures s[k] == '_' {
      assert s[k] == t[k - i];
    }
  }

  /** The folder name an application's display name is filed under: reserved
      characters become `_`, `.exe` is removed, spaces become `_`, and
      underscores at either end are stripped. */
  function CleanAppName(name: string): (r: string)
  {
    StripUnderscores(SpacesToUnderscores(RemoveAll(ReplaceReserved(name), ".exe")))
  }

  /** A sanitised folder name never holds a reserved character or a space, and
      neither starts nor ends with an underscore. */
  predicate SafeFolderName(r: string) {
    && (forall i :: 0 <= i < |r| ==> !IsReserved(r[i]) && r[i] != ' ')
    && (r == [] || (r[0] != '_' && r[|r| - 1] != '_'))
  }

  lemma CleanAppNameIsSafe(name: string)
    ensures SafeFolderName(CleanAppName(name))
  {
    var s1 := ReplaceReserved(name);
    var s2 := RemoveAll(s1, ".exe");
    RemovalKeepsSafe(s1, ".exe");
    var s3 := SpacesToUnderscores(s2);
    assert forall i :: 0 <= i < |s3| ==> !IsReserved(s3[i]) && s3[i] != ' ';
    StripKeepsSafe(s3);
  }

  /** Stripping only ever drops characters. */
  lemma StripKeepsChars(s: string)
    ensures forall i :: 0 <= i < |StripUnderscores(s)| ==> StripUnderscores(s)[i] in s
  {
    var t := StripLeading(s);
    var r := StripTrailing(t);
    forall i | 0 <= i < |r| ensures r[i] in s {
      assert r[i] == t[i] == s[|s| - |t| + i];
    }
  }

  /** Stripping a name without reserved characters or spaces gives a safe
      folder name. */
  lemma StripKeepsSafe(s: string)
    requires forall i :: 0 <= i < |s| ==> !IsReserved(s[i]) && s[i] != ' '
    ensures SafeFolderName(StripUnderscores(s))
  {
    StripKeepsChars(s);
    var r := StripUnderscores(s);
    forall i | 0 <= i < |r| ensures !IsReserved(r[i]) && r[i] != ' ' {
      var k :| 0 <= k < |s| && s[k] == r[i];
    }
  }

  /** Removing a pattern from a name without reserved characters introduces
      none. */
  lemma RemovalKeepsSafe(s: string, pat: string)
    requires pat != [] && forall i :: 0 <= i < |s| ==> !IsReserved(s[i])
    ensures forall i :: 0 <= i < |RemoveAll(s, pat)| ==> !IsReserved(RemoveAll(s, pat)[i])
  {
    var r := RemoveAll(s, pat);
    RemoveAllDropsOnly(s, pat);
    forall i | 0 <= i < |r| ensures !IsReserved(r[i]) {
      var k :| 0 <= k < |s| && s[k] == r[i];
    }
  }

  /** The `.exe` removal is one scan, so it can create the very text it
      removes: `a..exeexe` loses the `.exe` at index 2 and the two halves
      around it join into a new `.exe`, which stays in the folder name. */
  lemma ExeCanSurviveCleaning()
    ensures CleanAppName("a..exeexe") == "a.exe"
    ensures Contains(CleanAppName("a..exeexe"), ".exe")
  {
    SampleCharacters();
    ExeRemovalRejoins();
    CleanedTo("a..exeexe", "a.exe", ".exe");
    SampleKeepsExe();
  }

  lemma SampleKeepsExe()
    ensures Contains("a.exe", ".exe")
  {
    var t := "a.exe";
    assert t[1..5] == ".exe";
    ContainsAt(t, ".exe", 1);
  }

  /** A name without reserved characters whose pattern removal leaves a
      name without spaces or edge underscores is cleaned to that name. */
  lemma {:induction false} CleanedTo(x: string, y: string, pat: string)
    requires forall i :: 0 <= i < |x| ==> !IsReserved(x[i])
    requires pat != [] && RemoveAll(x, pat) == y
    requires forall i :: 0 <= i < |y| ==> y[i] != ' '
    requires y == [] || (y[0] != '_' && y[|y| - 1] != '_')
    ensures StripUnderscores(SpacesToUnderscores(RemoveAll(ReplaceReserved(x), pat))) == y
  {
    ReplaceReservedKeeps(x);
    FinishKeeps(y);
  }

  /** The sample name holds no reserved character, its cleaned form no
      space. */
  lemma SampleCharacters()
    ensures forall i :: 0 <= i < |"a..exeexe"| ==> !IsReserved("a..exeexe"[i])
    ensures forall i :: 0 <= i < |"a.exe"| ==> "a.exe"[i] != ' '
    ensures "a.exe"[0] != '_' && "a.exe"[4] != '_'
  {
    var s := "a..exeexe";
    assert s[0] == 'a' && s[1] == '.' && s[2] == '.' && s[3] == 'e' && s[4] == 'x';
    assert s[5] == 'e' && s[6] == 'e' && s[7] == 'x' && s[8] == 'e';
    var t := "a.exe";
    assert t[0] == 'a' && t[1] == '.' && t[2] == 'e' && t[3] == 'x' && t[4] == 'e';
  }

  /** One left-to-right pass of `.exe` removal over `a..exeexe`. */
  lemma ExeRemovalRejoins()
    ensures RemoveAll("a..exeexe", ".exe") == "a.exe"
  {
    var s := "a..exeexe";
    var u := s[1..];
    var v := u[1..];
    assert v[..4] == ".exe" && v[4..] == "exe";
    assert RemoveAll(v, ".exe") == "exe";
    assert u[1] == '.';
    assert u[..4] != ".exe";
    assert RemoveAll(u, ".exe") == [u[0]] + RemoveAll(v, ".exe");
    assert [u[0]] + "exe" == ".exe";
    assert s[0] == 'a';
    assert s[..4] != ".exe";
    assert RemoveAll(s, ".exe") == [s[0]] + RemoveAll(u, ".exe");
    assert [s[0]] + ".exe" == "a.exe";
  }

  lemma {:induction false} ReplaceReservedKeeps(s: string)
    requires forall i :: 0 <= i < |s| ==> !IsReserved(s[i])
    ensures ReplaceReserved(s) == s
  {
  }

  lemma {:induction false} RemoveAllKeeps(s: string, pat: string)
    requires pat != [] && !Contains(s, pat)
    ensures RemoveAll(s, pat) == s
    decreases |s|
  {
    if |s| >= |pat| {
      assert !StartsWith(s, pat);
      RemoveAllKeeps(s[1..], pat);
      assert [s[0]] + s[1..] == s;
    }
  }

  lemma {:induction false} SpacesToUnderscoresKeeps(s: string)
    requires forall i :: 0 <= i < |s| ==> s[i] != ' '
    ensures SpacesToUnderscores(s) == s
  {
  }

  /** A name that is already clean is its own folder name. */
  lemma {:induction false} CleanAppNameKeepsCleanNames(name: string)
    requires forall i :: 0 <= i < |name| ==> !IsReserved(name[i]) && name[i] != ' '
    requires !Contains(name, ".exe")
    requires name == [] || (name[0] != '_' && name[|name| - 1] != '_')
    ensures CleanAppName(name) == name
  {
    CleaningKeeps(name, ".exe");
  }

  /** Each step of the cleaning leaves such a name as it is, whatever the
      pattern removed. */
  lemma {:induction false} CleaningKeeps(name: string, pat: string)
    requires pat != [] && !Contains(name, pat)
    requires forall i :: 0 <= i < |name| ==> !IsReserved(name[i]) && name[i] != ' '
    requires name == [] || (name[0] != '_' && name[|name| - 1] != '_')
    ensures StripUnderscores(SpacesToUnderscores(RemoveAll(ReplaceReserved(name), pat))) == name
  {
    ReplaceReservedKeeps(name);
    RemoveAllKeeps(name, pat);
    FinishKeeps(name);
  }

  /** The last two cleaning steps leave a name without spaces and without
      an underscore at either end as it is. */
  lemma {:induction false} FinishKeeps(name: string)
    requires forall i :: 0 <= i < |name| ==> name[i] != ' '
    requires name == [] || (name[0] != '_' && name[|name| - 1] != '_')
    ensures StripUnderscores(SpacesToUnderscores(name)) == name
  {
    SpacesToUnderscoresKeeps(name);
    assert StripLeading(name) == name;
    assert StripTrailing(name) == name;
  }

  // ------------------------------------------------------------------
  // Clock readings as they appear in names (lines 487, 628, 652, 664, 945)

  /** A reading of the local clock, as `datetime.now()` gives it. */
  datatype DateTime = DateTime(year: nat, month: nat, day: nat, hour: nat, minute: nat, second: nat, micro: nat)

  /** A reading in range. Years are restricted to four digits, where `%Y`
      has one rendering on every platform. */
  predicate ValidDateTime(d: DateTime) {
    && 1000 <= d.year <= 9999 && 1 <= d.month <= 12 && 1 <= d.day <= 31
    && d.hour < 24 && d.minute < 60 && d.second < 60 && d.micro < 1000000
  }

  type Moment = d: DateTime | ValidDateTime(d) witness DateTime(2000, 1, 1, 0, 0, 0, 0)

  predicate IsDigit(c: char) {
    '0' <= c <= '9'
  }

  function Digit(n: nat): (c: char)
    requires n < 10
    ensures IsDigit(c)
  {
    ('0' as int + n) as char
  }

  function Pow10(width: nat): (p: nat)
    ensures p >= 1
  {
    if width == 0 then 1 else 10 * Pow10(width - 1)
  }

  /** The number a string of decimal digits spells, read left to right. */
  function DecimalValue(s: string): nat
    requires forall i :: 0 <= i < |s| ==> IsDigit(s[i])
  {
    if s == [] then 0
    else
      var last := s[|s| - 1];
      assert IsDigit(last);
      DecimalValue(s[..|s| - 1]) * 10 + (last as int - '0' as int)
  }

  /** n in exactly width decimal digits, zero-padded on the left: the
      fixed-width numeric fields of strftime. */
  function Digits(n: nat, width: nat): (r: string)
    ensures |r| == width && forall i :: 0 <= i < width ==> IsDigit(r[i])
    decreases width
  {
    if width == 0 then [] else Digits(n / 10, width - 1) + [Digit(n % 10)]
  }

  /** A number with at most width digits is spelled by its rendering. */
  lemma {:induction false} DigitsValue(n: nat, width: nat)
    requires n < Pow10(width)
    ensures DecimalValue(Digits(n, width)) == n
    decreases width
  {
    if width > 0 {
      var r := Digits(n, width);
      assert r[..width - 1] == Digits(n / 10, width - 1);
      DigitsValue(n / 10, width - 1);
    }
  }

  /** Numbers below 10^width have distinct renderings. */
  lemma {:induction false} DigitsInjective(a: nat, b: nat, width: nat)
    requires a < Pow10(width) && b < Pow10(width) && Digits(a, width) == Digits(b, width)
    ensures a == b
    decreases width
  {
    if width > 0 {
      var da, db := Digits(a, width), Digits(b, width);
      assert Digit(a % 10) == da[width - 1] == db[width - 1] == Digit(b % 10);
      assert da[..width - 1] == Digits(a / 10, width - 1);
      assert db[..width - 1] == Digits(b / 10, width - 1);
      DigitsInjective(a / 10, b / 10, width - 1);
    }
  }

  /** Eight digits, an underscore and six digits: the shape of
      `%Y%m%d_%H%M%S`. */
  predicate IsStamp(t: string) {
    && |t| == 15 && t[8] == '_'
    && (forall i :: 0 <= i < 8 ==> IsDigit(t[i]))
    && (forall i :: 9 <= i < 15 ==> IsDigit(t[i]))
  }

  /** `now.strftime('%Y%m%d_%H%M%S')`. */
  function Stamp(d: Moment): (t: string)
    ensures IsStamp(t)
  {
    var date := Digits(d.year, 4) + Digits(d.month, 2) + Digits(d.day, 2);
    var time := Digits(d.hour, 2) + Digits(d.minute, 2) + Digits(d.second, 2);
    assert forall i :: 0 <= i < 4 ==> date[i] == Digits(d.year, 4)[i];
    assert forall i :: 0 <= i < 2 ==> time[i] == Digits(d.hour, 2)[i];
    date + "_" + time
  }

  /** `now.strftime('%Y%m%d_%H%M%S_%f')[:-3]`: the stamp followed by the
      milliseconds, as the recording loop names its captures. */
  function MilliStamp(d: Moment): (t: string)
    ensures |t| == 19 && t[..15] == Stamp(d) && t[15] == '_'
    ensures t[16..] == Digits(d.micro / 1000, 3)
  {
    MicroDigitsHead(d.micro);
    Stamp(d) + "_" + Digits(d.micro, 6)[..3]
  }

  /** The first three of six microsecond digits are the milliseconds. */
  lemma MicroDigitsHead(n: nat)
    ensures Digits(n, 6)[..3] == Digits(n / 1000, 3)
  {
    assert n / 10 / 10 / 10 == n / 1000;
    var t := Digits(n / 10 / 10 / 10, 3);
    assert Digits(n, 6) == t + [Digit(n / 10 / 10 % 10), Digit(n / 10 % 10), Digit(n % 10)];
  }

  /** `YYYY-MM-DD`, the date part of `isoformat()`. */
  function IsoDate(d: Moment): (t: string)
    ensures |t| == 10 && t[4] == '-' && t[7] == '-'
  {
    Digits(d.year, 4) + "-" + Digits(d.month, 2) + "-" + Digits(d.day, 2)
  }

  /** `HH:MM:SS`, the time part of `isoformat()`. */
  function IsoTime(d: Moment): (t: string)
    ensures |t| == 8 && t[2] == ':' && t[5] == ':'
  {
    Digits(d.hour, 2) + ":" + Digits(d.minute, 2) + ":" + Digits(d.second, 2)
  }

  /** `now.isoformat()`: microseconds are written only when non-zero. */
  function IsoFormat(d: Moment): (t: string)
    ensures |t| == (if d.micro == 0 then 19 else 26)
    ensures t[4] == '-' && t[7] == '-' && t[10] == 'T' && t[13] == ':' && t[16] == ':'
  {
    IsoDate(d) + "T" + IsoTime(d) + (if d.micro == 0 then "" else "." + Digits(d.micro, 6))
  }

  lemma IsoDateFields(d: Moment)
    ensures var t := IsoDate(d);
      t[..4] == Digits(d.year, 4) && t[5..7] == Digits(d.month, 2) && t[8..] == Digits(d.day, 2)
  {
  }

  lemma IsoTimeFields(d: Moment)
    ensures var t := IsoTime(d);
      t[..2] == Digits(d.hour, 2) && t[3..5] == Digits(d.minute, 2) && t[6..] == Digits(d.second, 2)
  {
  }

  /** The isoformat fields spell the reading: year, month, day, hour,
      minute and second zero-padded at fixed offsets, then `.` and the six
      microsecond digits when there are microseconds. */
  lemma IsoFormatFields(d: Moment)
    ensures var t := IsoFormat(d);
      && t[..4] == Digits(d.year, 4) && t[5..7] == Digits(d.month, 2) && t[8..10] == Digits(d.day, 2)
      && t[11..13] == Digits(d.hour, 2) && t[14..16] == Digits(d.minute, 2) && t[17..19] == Digits(d.second, 2)
      && (d.micro != 0 ==> t[19] == '.' && t[20..] == Digits(d.micro, 6))
  {
    var t := IsoFormat(d);
    var date, time := IsoDate(d), IsoTime(d);
    IsoDateFields(d);
    IsoTimeFields(d);
    assert t[..10] == date && t[11..19] == time;
    assert t[..4] == date[..4] && t[5..7] == date[5..7] && t[8..10] == date[8..];
    assert t[11..13] == time[..2] && t[14..16] == time[3..5] && t[17..19] == time[6..];
  }

  /** Two clock readings in different seconds never share a stamp, so file
      names built from stamps collide only within one second. */
  lemma StampInjective(d1: Moment, d2: Moment)
    requires Stamp(d1) == Stamp(d2)
    ensures d1.year == d2.year && d1.month == d2.month && d1.day == d2.day
    ensures d1.hour == d2.hour && d1.minute == d2.minute && d1.second == d2.second
  {
    StampFields(d1);
    StampFields(d2);
    assert Pow10(2) == 100 && Pow10(4) == 10000;
    DigitsInjective(d1.year, d2.year, 4);
    DigitsInjective(d1.month, d2.month, 2);
    DigitsInjective(d1.day, d2.day, 2);
    DigitsInjective(d1.hour, d2.hour, 2);
    DigitsInjective(d1.minute, d2.minute, 2);
    DigitsInjective(d1.second, d2.second, 2);
  }

  /** Two readings with the same isoformat are the same reading, down to
      the microsecond. */
  lemma IsoFormatInjective(d1: Moment, d2: Moment)
    requires IsoFormat(d1) == IsoFormat(d2)
    ensures d1 == d2
  {
    IsoFormatFields(d1);
    IsoFormatFields(d2);
    assert Pow10(2) == 100 && Pow10(4) == 10000 && Pow10(6) == 1000000;
    DigitsInjective(d1.year, d2.year, 4);
    DigitsInjective(d1.month, d2.month, 2);
    DigitsInjective(d1.day, d2.day, 2);
    DigitsInjective(d1.hour, d2.hour, 2);
    DigitsInjective(d1.minute, d2.minute, 2);
    DigitsInjective(d1.second, d2.second, 2);
    if d1.micro != 0 {
      DigitsInjective(d1.micro, d2.micro, 6);
    }
  }

  /** Where each field sits in a stamp. */
  lemma StampFields(d: Moment)
    ensures var t := Stamp(d);
      && t[..4] == Digits(d.year, 4) && t[4..6] == Digits(d.month, 2) && t[6..8] == Digits(d.day, 2)
      && t[9..11] == Digits(d.hour, 2) && t[11..13] == Digits(d.minute, 2) && t[13..15] == Digits(d.second, 2)
  {
  }

  // ------------------------------------------------------------------
  // File-name syntax (pathlib, and the patterns at lines 445, 1107-1111)

  /** The index of the last c in s, or -1 when there is none. */
  function LastIndex(s: string, c: char): (i: int)
    ensures -1 <= i < |s|
    ensures 0 <= i ==> s[i] == c
    ensures forall k :: i < k < |s| ==> s[k] != c
  {
    if s == [] then -1 else if s[|s| - 1] == c then |s| - 1 else LastIndex(s[..|s| - 1], c)
  }

  /** `PurePath(name).stem`: the name without its suffix, where the suffix
      starts at the last dot unless that dot opens or ends the name. */
  function Stem(name: string): string {
    var i := LastIndex(name, '.');
    if 0 < i < |name| - 1 then name[..i] else name
  }

  /** `PurePath(name).with_suffix(suffix)`. */
  function WithSuffix(name: string, suffix: string): string {
    Stem(name) + suffix
  }

  /** A name `*.png` matches, and one `*.json` matches. */
  predicate IsPng(name: string) {
    EndsWith(name, ".png")
  }

  predicate IsJson(name: string) {
    EndsWith(name, ".json")
  }

  /** `re.sub(r'_\d{8}_\d{6}$', '', stem)`: the pattern has a fixed length,
      so only the last sixteen characters can match it. */
  function StripStamp(stem: string): (r: string)
    ensures |r| <= |stem| && r == stem[..|r|]
    ensures |r| < |stem| ==> |r| == |stem| - 16 && stem[|r|] == '_' && IsStamp(stem[|r| + 1..])
    ensures |r| == |stem| ==> !(|stem| >= 16 && stem[|stem| - 16] == '_' && IsStamp(stem[|stem| - 15..]))
  {
    if |stem| >= 16 && stem[|stem| - 16] == '_' && IsStamp(stem[|stem| - 15..]) then stem[..|stem| - 16] else stem
  }

  /** The logical name the bulk deduplication groups files by: the stem with
      its timestamp suffix stripped (lines 1109-1111). */
  function LogicalName(filename: string): string {
    StripStamp(Stem(filename))
  }

  /** The file name a screenshot named `clean` is saved under (lines 487, 652). */
  function StampedName(clean: string, now: Moment): (r: string)
    ensures IsPng(r)
  {
    clean + "_" + Stamp(now) + ".png"
  }

  /** Stripping the timestamp suffix from `{clean}_{stamp}` gives back clean. */
  lemma StripStampRoundTrip(clean: string, ts: string)
    requires IsStamp(ts)
    ensures StripStamp(clean + "_" + ts) == clean
  {
    var s := clean + "_" + ts;
    assert s[|s| - 15..] == ts;
    assert s[..|s| - 16] == clean;
  }

  /** A saved file's logical name is the clean name it was saved under, so the
      bulk deduplication files it under the same key as the save did. */
  lemma LogicalNameOfStampedName(clean: string, now: Moment)
    ensures LogicalName(StampedName(clean, now)) == clean
  {
    var ts := Stamp(now);
    var s := StampedName(clean, now);
    var dot := |clean| + 16;
    assert s == (clean + "_" + ts) + ".png";
    assert s[dot] == '.';
    assert forall k :: 9 <= k < 15 ==> ts[k] != '.';
    assert forall k :: 0 <= k < 8 ==> ts[k] != '.';
    assert LastIndex(s, '.') == dot;
    assert Stem(s) == clean + "_" + ts;
    StripStampRoundTrip(clean, ts);
  }

  /** `{clean}_*.png` as a pathlib glob: the name starts with clean and an
      underscore and ends with `.png`, the two not overlapping. */
  predicate MatchesSavedGlob(name: string, clean: string) {
    |name| >= |clean| + 5 && StartsWith(name, clean + "_") && IsPng(name)
  }

  lemma StampedNameMatchesGlob(clean: string, now: Moment)
    ensures MatchesSavedGlob(StampedName(clean, now), clean)
  {
    var s := StampedName(clean, now);
    assert s[..|clean| + 1] == clean + "_";
  }

  /** The save's duplicate test is the glob, which is wider than the logical
      name: a step named `foo` counts as a duplicate of a saved `foo_bar`. */
  lemma GlobWiderThanLogicalName()
    ensures MatchesSavedGlob("foo_bar_20240101_000000.png", "foo")
    ensures LogicalName("foo_bar_20240101_000000.png") == "foo_bar"
  {
    var s := "foo_bar_20240101_000000.png";
    assert s[..4] == "foo_";
    assert s[|s| - 4..] == ".png";
    FooBarIsStamped();
    LogicalNameOfStampedName("foo_bar", DateTime(2024, 1, 1, 0, 0, 0, 0));
  }

  /** The sample file is what a step named `foo_bar` is saved under at the
      first second of 2024. */
  lemma FooBarIsStamped()
    ensures StampedName("foo_bar", DateTime(2024, 1, 1, 0, 0, 0, 0)) == "foo_bar_20240101_000000.png"
  {
    NewYearStamp();
  }

  lemma NewYearStamp()
    ensures Stamp(DateTime(2024, 1, 1, 0, 0, 0, 0)) == "20240101_000000"
  {
  }
}

=== FILE: optional.dfy ===
/** A value that may be absent: a JSON field that was not sent, a search that
    found nothing, an empty slot. */
module Optional {

  datatype Option<+T> = None | Some(value: T)
}

=== FILE: ordering.dfy ===
/** Python's ordering of strings and `list.sort(key=...)`, which the backend
    uses to order the running applications and the window list. */
module Ordering {

  /** `a <= b` on Python strings: lexicographic by code point, a proper
      prefix first. */
  predicate StrLe(a: string, b: string)
    decreases |a|
  {
    a == [] || (b != [] && (a[0] < b[0] || (a[0] == b[0] && StrLe(a[1..], b[1..]))))
  }

  lemma {:induction false} StrLeTotal(a: string, b: string)
    ensures StrLe(a, b) || StrLe(b, a)
    decreases |a|
  {
    if a != [] && b != [] && a[0] == b[0] {
      StrLeTotal(a[1..], b[1..]);
    }
  }

  lemma {:induction false} StrLeTrans(a: string, b: string, c: string)
    requires StrLe(a, b) && StrLe(b, c)
    ensures StrLe(a, c)
    decreases |a|
  {
    if a != [] && a[0] == b[0] && b[0] == c[0] {
      StrLeTrans(a[1..], b[1..], c[1..]);
    }
  }

  lemma {:induction false} StrLeAntisymmetric(a: string, b: string)
    requires StrLe(a, b) && StrLe(b, a)
    ensures a == b
    decreases |a|
  {
    if a != [] {
      StrLeAntisymmetric(a[1..], b[1..]);
      assert a == [a[0]] + a[1..] && b == [b[0]] + b[1..];
    }
  }

  /** s is in ascending order of key. */
  predicate SortedBy<T>(s: seq<T>, key: T -> string) {
    forall i, j :: 0 <= i < j < |s| ==> StrLe(key(s[i]), key(s[j]))
  }

  /** Put x in front of the first element whose key is not smaller than its
      own. */
  function Insert<T>(x: T, s: seq<T>, key: T -> string): (r: seq<T>)
    ensures |r| == |s| + 1 && multiset(r) == multiset(s) + multiset{x}
  {
    if s == [] || StrLe(key(x), key(s[0])) then [x] + s
    else
      var r := [s[0]] + Insert(x, s[1..], key);
      assert s == [s[0]] + s[1..];
      r
  }

  lemma {:induction false} InsertSorted<T>(x: T, s: seq<T>, key: T -> string)
    requires SortedBy(s, key)
    ensures SortedBy(Insert(x, s, key), key)
    decreases |s|
  {
    if s == [] {
    } else if StrLe(key(x), key(s[0])) {
      forall j | 0 <= j < |s| ensures StrLe(key(x), key(s[j])) {
        if j > 0 {
          StrLeTrans(key(x), key(s[0]), key(s[j]));
        }
      }
      ConsSorted(x, s, key);
    } else {
      var rest := Insert(x, s[1..], key);
      InsertSorted(x, s[1..], key);
      StrLeTotal(key(x), key(s[0]));
      forall j | 0 <= j < |rest| ensures StrLe(key(s[0]), key(rest[j])) {
        assert rest[j] in multiset(rest);
        if rest[j] != x {
          assert rest[j] in multiset(s[1..]);
          var k :| 0 <= k < |s[1..]| && s[1..][k] == rest[j];
          assert s[k + 1] == rest[j];
        }
      }
      ConsSorted(s[0], rest, key);
    }
  }

  /** A sorted list stays sorted behind an element no greater than any of
      its own. */
  lemma ConsSorted<T>(x: T, s: seq<T>, key: T -> string)
    requires SortedBy(s, key) && forall j :: 0 <= j < |s| ==> StrLe(key(x), key(s[j]))
    ensures SortedBy([x] + s, key)
  {
    var r := [x] + s;
    forall i, j | 0 <= i < j < |r| ensures StrLe(key(r[i]), key(r[j])) {
      assert r[j] == s[j - 1];
      if i > 0 {
        assert r[i] == s[i - 1];
      }
    }
  }

  /** `s.sort(key=key)`: an insertion sort, stable like Python's. */
  function SortBy<T>(s: seq<T>, key: T -> string): (r: seq<T>)
    ensures |r| == |s| && multiset(r) == multiset(s)
  {
    if s == [] then []
    else
      var r := Insert(s[0], SortBy(s[1..], key), key);
      assert s == [s[0]] + s[1..];
      r
  }

  /** The sorted list is in key order and holds exactly the same elements. */
  lemma {:induction false} SortBySorted<T>(s: seq<T>, key: T -> string)
    ensures SortedBy(SortBy(s, key), key)
    decreases |s|
  {
    if s != [] {
      SortBySorted(s[1..], key);
      InsertSorted(s[0], SortBy(s[1..], key), key);
    }
  }

  /** Sorting neither adds nor drops an element. */
  lemma SortByMembers<T>(s: seq<T>, key: T -> string)
    ensures forall y :: y in SortBy(s, key) <==> y in s
  {
    forall y ensures y in SortBy(s, key) <==> y in s {
      assert y in SortBy(s, key) <==> y in multiset(SortBy(s, key));
      assert y in s <==> y in multiset(s);
    }
  }

  /** No two elements of s share a key. */
  predicate KeysDistinct<T>(s: seq<T>, key: T -> string) {
    forall i, j :: 0 <= i < j < |s| ==> key(s[i]) != key(s[j])
  }

  lemma {:induction false} InsertKeysDistinct<T>(x: T, s: seq<T>, key: T -> string)
    requires KeysDistinct(s, key) && forall k :: 0 <= k < |s| ==> key(s[k]) != key(x)
    ensures KeysDistinct(Insert(x, s, key), key)
    decreases |s|
  {
    if s == [] || StrLe(key(x), key(s[0])) {
      ConsKeysDistinct(x, s, key);
    } else {
      var rest := Insert(x, s[1..], key);
      assert forall k :: 0 <= k < |s[1..]| ==> s[1..][k] == s[k + 1];
      InsertKeysDistinct(x, s[1..], key);
      forall j | 0 <= j < |rest| ensures key(rest[j]) != key(s[0]) {
        assert rest[j] in multiset(rest);
        if rest[j] != x {
          assert rest[j] in multiset(s[1..]);
          var k :| 0 <= k < |s[1..]| && s[1..][k] == rest[j];
          assert s[k + 1] == rest[j];
        }
      }
      ConsKeysDistinct(s[0], rest, key);
    }
  }

  /** An element whose key no element of s has keeps the keys distinct in
      front of s. */
  lemma ConsKeysDistinct<T>(x: T, s: seq<T>, key: T -> string)
    requires KeysDistinct(s, key) && forall k :: 0 <= k < |s| ==> key(s[k]) != key(x)
    ensures KeysDistinct([x] + s, key)
  {
    var r := [x] + s;
    forall i, j | 0 <= i < j < |r| ensures key(r[i]) != key(r[j]) {
      assert r[j] == s[j - 1];
      if i > 0 {
        assert r[i] == s[i - 1];
      }
    }
  }

  /** Sorting keeps the keys distinct. */
  lemma {:induction false} SortByKeysDistinct<T>(s: seq<T>, key: T -> string)
    requires KeysDistinct(s, key)
    ensures KeysDistinct(SortBy(s, key), key)
    decreases |s|
  {
    if s != [] {
      var rest := SortBy(s[1..], key);
      SortByKeysDistinct(s[1..], key);
      forall k | 0 <= k < |rest| ensures key(rest[k]) != key(s[0]) {
        assert rest[k] in multiset(rest) && rest[k] in multiset(s[1..]);
        var m :| 0 <= m < |s[1..]| && s[1..][m] == rest[k];
        assert s[m + 1] == rest[k];
      }
      InsertKeysDistinct(s[0], rest, key);
    }
  }

  /** `s[:n]`. */
  function Take<T>(s: seq<T>, n: nat): (r: seq<T>)
    ensures |r| == (if |s| < n then |s| else n)
    ensures r == s[..|r|]
  {
    if |s| <= n then s else s[..n]
  }

  /** Cutting a list keeps its order, its distinct keys and its members. */
  lemma TakeKeeps<T>(s: seq<T>, n: nat, key: T -> string)
    ensures SortedBy(s, key) ==> SortedBy(Take(s, n), key)
    ensures KeysDistinct(s, key) ==> KeysDistinct(Take(s, n), key)
    ensures forall y :: y in Take(s, n) ==> y in s
  {
    var r := Take(s, n);
    assert forall k :: 0 <= k < |r| ==> r[k] == s[k];
  }
}

=== FILE: processes.dfy ===
/** The list of running applications the operator picks a target from:
    `get_running_apps` (desktop_app.py, lines 213-247). The process table is
    a parameter: the processes in the order the operating system reports
    them. A process that exits or refuses access while it is read is skipped
    by the source; here it is simply absent from the table. */
module RunningApps {
  import opened Optional
  import opened Ordering

  /** What the process table reports; a name or an executable path that
      could not be read is absent. */
  datatype Process = Process(pid: int, name: Option<string>, exe: Option<string>)

  /** One entry of the reply. */
  datatype AppInfo = AppInfo(name: string, pid: int, windowTitle: string, path: Option<string>)

  const IdleProcess := "System Idle Process"

  /** The first loop's test: a non-empty name other than the idle process. */
  predicate Offered(p: Process) {
    p.name.Some? && p.name.value != "" && p.name.value != IdleProcess
  }

  /** The entry built for an offered process: its name doubles as the
      window title. */
  function Describe(p: Process): AppInfo
    requires p.name.Some?
  {
    AppInfo(p.name.value, p.pid, p.name.value, p.exe)
  }

  function Name(a: AppInfo): string {
    a.name
  }

  /** The names occurring in a list of entries. */
  function NameSet(apps: seq<AppInfo>): set<string> {
    set i | 0 <= i < |apps| :: apps[i].name
  }

  lemma NameSetSnoc(apps: seq<AppInfo>, a: AppInfo)
    ensures NameSet(apps + [a]) == NameSet(apps) + {a.name}
  {
    var s := apps + [a];
    forall n | n in NameSet(s) ensures n in NameSet(apps) + {a.name} {
      var i :| 0 <= i < |s| && s[i].name == n;
      if i < |apps| {
        assert apps[i] == s[i];
      }
    }
    assert s[|apps|] == a;
    forall n | n in NameSet(apps) ensures n in NameSet(s) {
      var i :| 0 <= i < |apps| && apps[i].name == n;
      assert s[i] == apps[i];
    }
  }

  // ------------------------------------------------------------------
  // The first loop: collecting the offered processes

  /** `apps` after the first loop: an entry per offered process, in table
      order. */
  function Candidates(procs: seq<Process>): (r: seq<AppInfo>)
    ensures |r| <= |procs|
    decreases |procs|
  {
    if procs == [] then []
    else
      var n := |procs| - 1;
      if Offered(procs[n]) then Candidates(procs[..n]) + [Describe(procs[n])]
      else Candidates(procs[..n])
  }

  /** The candidates are exactly the entries of the offered processes. */
  lemma {:induction false} CandidatesAreOffered(procs: seq<Process>)
    ensures forall a :: a in Candidates(procs) <==> exists p :: p in procs && Offered(p) && Describe(p) == a
    decreases |procs|
  {
    if procs != [] {
      var n := |procs| - 1;
      var init := procs[..n];
      CandidatesAreOffered(init);
      assert procs == init + [procs[n]];
      forall a ensures a in Candidates(procs) <==> exists p :: p in procs && Offered(p) && Describe(p) == a {
        if a in Candidates(init) {
          var p :| p in init && Offered(p) && Describe(p) == a;
          assert p in procs;
        }
        if exists p :: p in procs && Offered(p) && Describe(p) == a {
          var p :| p in procs && Offered(p) && Describe(p) == a;
          if p != procs[n] {
            assert p in init;
          }
        }
      }
    }
  }

  // ------------------------------------------------------------------
  // The second loop: one entry per name

  /** `unique_apps`: each name's first entry, in the order of the input. */
  function FirstPerName(apps: seq<AppInfo>): (r: seq<AppInfo>)
    ensures NameSet(r) == NameSet(apps)
    ensures KeysDistinct(r, Name)
    decreases |apps|
  {
    if apps == [] then []
    else
      var n := |apps| - 1;
      var init := FirstPerName(apps[..n]);
      assert apps == apps[..n] + [apps[n]];
      NameSetSnoc(apps[..n], apps[n]);
      NameSetSnoc(init, apps[n]);
      if apps[n].name in NameSet(init) then init
      else
        var r := init + [apps[n]];
        assert forall i :: 0 <= i < |init| ==> init[i].name in NameSet(init);
        r
  }

  /** An entry is kept exactly when no earlier entry has its name. */
  lemma FirstPerNameKeepsFirst(apps: seq<AppInfo>)
    ensures forall a :: a in FirstPerName(apps) <==>
      exists i :: 0 <= i < |apps| && apps[i] == a && a.name !in NameSet(apps[..i])
  {
    forall a ensures a in FirstPerName(apps) <==>
      exists i :: 0 <= i < |apps| && apps[i] == a && a.name !in NameSet(apps[..i])
    {
      if a in FirstPerName(apps) {
        var i := KeptIsFirst(apps, a);
      }
      if exists i :: 0 <= i < |apps| && apps[i] == a && a.name !in NameSet(apps[..i]) {
        var i :| 0 <= i < |apps| && apps[i] == a && a.name !in NameSet(apps[..i]);
        FirstIsKept(apps, i);
      }
    }
  }

  /** A kept entry is the first with its name. */
  lemma {:induction false} KeptIsFirst(apps: seq<AppInfo>, a: AppInfo) returns (i: nat)
    requires a in FirstPerName(apps)
    ensures i < |apps| && apps[i] == a && a.name !in NameSet(apps[..i])
    decreases |apps|
  {
    var n := |apps| - 1;
    var init := apps[..n];
    if a in FirstPerName(init) {
      i := KeptIsFirst(init, a);
      assert init[..i] == apps[..i];
    } else {
      i := n;
    }
  }

  /** The first entry with its name is kept. */
  lemma {:induction false} FirstIsKept(apps: seq<AppInfo>, i: nat)
    requires i < |apps| && apps[i].name !in NameSet(apps[..i])
    ensures apps[i] in FirstPerName(apps)
    decreases |apps|
  {
    var n := |apps| - 1;
    var init := apps[..n];
    if i < n {
      assert init[..i] == apps[..i] && init[i] == apps[i];
      FirstIsKept(init, i);
    } else {
      assert init == apps[..i];
    }
  }

  // ------------------------------------------------------------------
  // The reply

  /** The reply's list: the first entry per name, sorted by name, at most
      fifty of them. */
  function Listing(procs: seq<Process>): seq<AppInfo> {
    Take(SortBy(FirstPerName(Candidates(procs)), Name), 50)
  }

  method GetRunningApps(procs: seq<Process>) returns (apps: seq<AppInfo>)
    ensures apps == Listing(procs)
  {
    var candidates: seq<AppInfo> := [];
    for i := 0 to |procs|
      invariant candidates == Candidates(procs[..i])
    {
      assert procs[..i + 1][..i] == procs[..i];
      var p := procs[i];
      if p.name.Some? && p.name.value != "" && p.name.value != IdleProcess {
        candidates := candidates + [AppInfo(p.name.value, p.pid, p.name.value, p.exe)];
      }
    }
    assert procs[..|procs|] == procs;
    var unique: seq<AppInfo> := [];
    var seen: set<string> := {};
    for i := 0 to |candidates|
      invariant unique == FirstPerName(candidates[..i])
      invariant seen == NameSet(unique)
    {
      assert candidates[..i + 1][..i] == candidates[..i];
      var a := candidates[i];
      if a.name !in seen {
        NameSetSnoc(unique, a);
        seen := seen + {a.name};
        unique := unique + [a];
      }
    }
    assert candidates[..|candidates|] == candidates;
    apps := Take(SortBy(unique, Name), 50);
  }

  /** Every listed entry is an offered process's entry, the first with its
      name; the list is sorted by name, names do not repeat, and there are at
      most fifty entries. */
  lemma ListingSound(procs: seq<Process>)
    ensures |Listing(procs)| <= 50
    ensures SortedBy(Listing(procs), Name) && KeysDistinct(Listing(procs), Name)
    ensures forall a :: a in Listing(procs) ==>
      a in FirstPerName(Candidates(procs)) && exists p :: p in procs && Offered(p) && Describe(p) == a
  {
    var candidates := Candidates(procs);
    var unique := FirstPerName(candidates);
    var sorted := SortBy(unique, Name);
    SortBySorted(unique, Name);
    SortByKeysDistinct(unique, Name);
    SortByMembers(unique, Name);
    TakeKeeps(sorted, 50, Name);
    CandidatesAreOffered(procs);
    forall a | a in Listing(procs)
      ensures a in unique && exists p :: p in procs && Offered(p) && Describe(p) == a
    {
      assert a in sorted;
      var i := KeptIsFirst(candidates, a);
      assert a in candidates;
    }
  }

  /** An offered name is missing from the reply only when the list is full
      and every listed name sorts no later than it. */
  lemma ListingComplete(procs: seq<Process>, p: Process)
    requires p in procs && Offered(p)
    ensures p.name.value in NameSet(Listing(procs)) ||
      (|Listing(procs)| == 50 && forall k :: 0 <= k < 50 ==> StrLe(Listing(procs)[k].name, p.name.value))
  {
    var unique := FirstPerName(Candidates(procs));
    var sorted := SortBy(unique, Name);
    var r := Listing(procs);
    CandidatesAreOffered(procs);
    assert Describe(p) in Candidates(procs);
    var c :| 0 <= c < |Candidates(procs)| && Candidates(procs)[c] == Describe(p);
    assert p.name.value in NameSet(Candidates(procs));
    var u :| 0 <= u < |unique| && unique[u].name == p.name.value;
    SortByMembers(unique, Name);
    assert unique[u] in sorted;
    var j :| 0 <= j < |sorted| && sorted[j] == unique[u];
    if j < |r| {
      assert r[j] == sorted[j];
    } else {
      SortBySorted(unique, Name);
      forall k | 0 <= k < 50 ensures StrLe(r[k].name, p.name.value) {
        assert r[k] == sorted[k];
      }
    }
  }
}

=== FILE: renderer.dfy ===
/** The renderer's own logic (src/renderer/App.tsx): the file URL an image
    is shown from, the dashed selection box, dropping a removed screenshot
    from the session list, and the name a launched application is shown
    and sent under. Canvas coordinates are JavaScript numbers; here they are
    integers. */
module Renderer {
  import opened Optional
  import opened Names
  import Capture

  // ------------------------------------------------------------------
  // getImageSrc (lines 495-504)

  /** `path.replace(/\\/g, '/')`: every backslash becomes a slash. */
  function Slashes(s: string): (r: string)
    ensures |r| == |s|
    ensures forall i :: 0 <= i < |s| ==> r[i] != '\\' && (s[i] != '\\' ==> r[i] == s[i])
  {
    if s == [] then [] else [if s[0] == '\\' then '/' else s[0]] + Slashes(s[1..])
  }

  /** The `src` of an image for a saved file path: empty for an empty path,
      otherwise a `file://` URL of the path with forward slashes, rooted
      with one `/` when the path is not rooted already. */
  function ImageSrc(filePath: string): string {
    if filePath == "" then ""
    else
      var normalized := Slashes(filePath);
      var rooted := if StartsWith(normalized, "/") then normalized else "/" + normalized;
      "file://" + rooted
  }

  /** A non-empty path becomes a `file:///` URL without a backslash, which
      ends with the path itself, its separators turned into slashes. */
  lemma ImageSrcIsFileUrl(filePath: string)
    requires filePath != ""
    ensures StartsWith(ImageSrc(filePath), "file:///")
    ensures forall i :: 0 <= i < |ImageSrc(filePath)| ==> ImageSrc(filePath)[i] != '\\'
    ensures EndsWith(ImageSrc(filePath), Slashes(filePath))
    ensures |ImageSrc(filePath)| <= |filePath| + 8
  {
    var normalized := Slashes(filePath);
    var rooted := if StartsWith(normalized, "/") then normalized else "/" + normalized;
    assert rooted[0] == '/';
    assert rooted[|rooted| - |normalized|..] == normalized;
    assert forall i :: 0 <= i < |rooted| ==> rooted[i] != '\\';
    SchemeBeforeRoot(rooted, normalized);
  }

  /** Putting the scheme in front of a rooted path without backslashes. */
  lemma SchemeBeforeRoot(rooted: string, tail: string)
    requires rooted != [] && rooted[0] == '/' && EndsWith(rooted, tail)
    requires forall i :: 0 <= i < |rooted| ==> rooted[i] != '\\'
    ensures StartsWith("file://" + rooted, "file:///")
    ensures forall i :: 0 <= i < |"file://" + rooted| ==> ("file://" + rooted)[i] != '\\'
    ensures EndsWith("file://" + rooted, tail)
  {
    var scheme := "file://";
    var r := scheme + rooted;
    assert r[..8] == scheme + [rooted[0]];
    assert r[|r| - |tail|..] == rooted[|rooted| - |tail|..];
    forall i | 0 <= i < |r| ensures r[i] != '\\' {
      if i >= 7 {
        assert r[i] == rooted[i - 7];
      }
    }
  }

  /** A path whose first separator, once turned into a slash, opens it
      gains only the scheme: no second slash is added. A path already
      written with slashes is kept as it is. */
  lemma ImageSrcOfRootedPath(filePath: string)
    requires filePath != [] && (filePath[0] == '/' || filePath[0] == '\\')
    ensures ImageSrc(filePath) == "file://" + Slashes(filePath)
    ensures (forall i :: 0 <= i < |filePath| ==> filePath[i] != '\\') ==> ImageSrc(filePath) == "file://" + filePath
  {
    var normalized := Slashes(filePath);
    assert normalized[..1] == "/";
    if forall i :: 0 <= i < |filePath| ==> filePath[i] != '\\' {
      assert normalized == filePath;
    }
  }

  /** A Windows path, as the backend reports it. */
  lemma ImageSrcOfWindowsPath()
    ensures ImageSrc("C:\\a") == "file:///C:/a"
  {
    var normalized := Slashes("C:\\a");
    assert normalized == "C:/a";
    assert !StartsWith(normalized, "/");
  }

  // ------------------------------------------------------------------
  // getSelectionStyle (lines 473-492)

  datatype Point = Point(x: int, y: int)

  /** The style of the dashed box: no box until both corners are known;
      the presentation properties (border, colour, stacking) are constant
      and not modelled. */
  datatype SelectionBox = NoBox | Box(left: int, top: int, width: int, height: int)

  function SelectionStyle(start: Option<Point>, end: Option<Point>): SelectionBox {
    if start.None? || end.None? then NoBox
    else
      var a := start.value;
      var b := end.value;
      Box(Capture.Min(a.x, b.x), Capture.Min(a.y, b.y), Capture.Abs(b.x - a.x), Capture.Abs(b.y - a.y))
  }

  /** The box shown while dragging is the region the overlays capture on
      release: both follow the same normalisation rule. It is there only once
      both corners are, and it does not depend on the drag's direction. */
  lemma SelectionBoxIsCapturedRegion(start: Option<Point>, end: Option<Point>)
    ensures SelectionStyle(start, end).NoBox? <==> start.None? || end.None?
    ensures start.Some? && end.Some? ==>
      var r := Capture.Normalize(Capture.Corners(start.value.x, start.value.y, end.value.x, end.value.y));
      SelectionStyle(start, end) == Box(r.x, r.y, r.width, r.height)
    ensures SelectionStyle(start, end) == SelectionStyle(end, start)
  {
    if start.Some? && end.Some? {
      var c := Capture.Corners(start.value.x, start.value.y, end.value.x, end.value.y);
      Capture.NormalizeSymmetric(c);
    }
  }

  // ------------------------------------------------------------------
  // removeScreenshot, session branch (line 456)

  /** A screenshot of the session list. */
  datatype SessionShot = SessionShot(path: string, name: Option<string>, description: Option<string>)

  /** `prev.filter(s => s.path !== screenshotPath)`. */
  function WithoutPath(session: seq<SessionShot>, path: string): (r: seq<SessionShot>)
    ensures |r| <= |session|
    decreases |session|
  {
    if session == [] then []
    else
      var n := |session| - 1;
      var init := WithoutPath(session[..n], path);
      if session[n].path != path then init + [session[n]] else init
  }

  /** Exactly the entries with another path stay. */
  lemma {:induction false} WithoutPathKeepsOthers(session: seq<SessionShot>, path: string)
    ensures forall s :: s in WithoutPath(session, path) <==> s in session && s.path != path
    decreases |session|
  {
    if session != [] {
      var n := |session| - 1;
      WithoutPathKeepsOthers(session[..n], path);
      assert session == session[..n] + [session[n]];
    }
  }

  /** The filter works entry by entry, so the survivors keep their order:
      filtering a list made of two parts filters each part. */
  lemma {:induction false} WithoutPathKeepsOrder(front: seq<SessionShot>, back: seq<SessionShot>, path: string)
    ensures WithoutPath(front + back, path) == WithoutPath(front, path) + WithoutPath(back, path)
    decreases |back|
  {
    if back != [] {
      var n := |back| - 1;
      WithoutPathKeepsOrder(front, back[..n], path);
      var whole := front + back;
      assert whole[..|whole| - 1] == front + back[..n] && whole[|whole| - 1] == back[n];
      var f := WithoutPath(front, path);
      var b := WithoutPath(back[..n], path);
      if back[n].path != path {
        assert f + (b + [back[n]]) == (f + b) + [back[n]];
      }
    } else {
      assert front + back == front;
    }
  }

  /** Removing a path a second time changes nothing. */
  lemma {:induction false} WithoutPathIdempotent(session: seq<SessionShot>, path: string)
    ensures WithoutPath(WithoutPath(session, path), path) == WithoutPath(session, path)
    decreases |session|
  {
    if session != [] {
      var n := |session| - 1;
      WithoutPathIdempotent(session[..n], path);
      var init := WithoutPath(session[..n], path);
      if session[n].path != path {
        var r := init + [session[n]];
        assert r[..|r| - 1] == init;
      }
    }
  }

  // ------------------------------------------------------------------
  // The launched application's name (line 189)

  /** What follows the last backslash. */
  function AfterLastBackslash(s: string): (r: string)
    ensures EndsWith(s, r) && forall i :: 0 <= i < |r| ==> r[i] != '\\'
    ensures |r| < |s| ==> s[|s| - |r| - 1] == '\\'
  {
    var k := LastIndex(s, '\\');
    var r := s[k + 1..];
    forall i | 0 <= i < |r| ensures r[i] != '\\' {
      assert r[i] == s[k + 1 + i];
    }
    r
  }

  /** `appPath.split('\\').pop() || 'Unknown'`. */
  function LaunchedAppName(appPath: string): string {
    var last := AfterLastBackslash(appPath);
    if last == "" then "Unknown" else last
  }

  /** The name is never empty and never holds a backslash. A path that is
      empty or ends in a backslash is shown as `Unknown`; any other path
      ends with its name, and the name is the whole path or follows a
      backslash. */
  lemma LaunchedAppNameIsLastSegment(appPath: string)
    ensures LaunchedAppName(appPath) != ""
    ensures forall i :: 0 <= i < |LaunchedAppName(appPath)| ==> LaunchedAppName(appPath)[i] != '\\'
    ensures appPath == [] || appPath[|appPath| - 1] == '\\' ==> LaunchedAppName(appPath) == "Unknown"
    ensures appPath != [] && appPath[|appPath| - 1] != '\\' ==>
      var name := LaunchedAppName(appPath);
      EndsWith(appPath, name) && (|name| == |appPath| || appPath[|appPath| - |name| - 1] == '\\')
  {
    var k := LastIndex(appPath, '\\');
    var last := AfterLastBackslash(appPath);
    assert last == appPath[k + 1..];
    if appPath == [] || appPath[|appPath| - 1] == '\\' {
      assert k == |appPath| - 1;
      assert last == [];
      assert LaunchedAppName(appPath) == "Unknown";
      UnknownHasNoBackslash();
    } else {
      assert k < |appPath| - 1;
      assert |last| > 0;
      assert LaunchedAppName(appPath) == last;
    }
  }

  lemma UnknownHasNoBackslash()
    ensures forall i :: 0 <= i < |"Unknown"| ==> "Unknown"[i] != '\\'
  {
    var u := "Unknown";
    assert u[0] == 'U' && u[1] == 'n' && u[2] == 'k' && u[3] == 'n' && u[4] == 'o' && u[5] == 'w' && u[6] == 'n';
  }

  /** Only the backslash separates: a path written with forward slashes is
      shown, and sent to the backend, whole. */
  lemma ForwardSlashPathKeptWhole()
    ensures LaunchedAppName("C:/Apps/tool.exe") == "C:/Apps/tool.exe"
  {
    var p := "C:/Apps/tool.exe";
    assert forall i :: 0 <= i < |p| ==> p[i] != '\\';
    assert LastIndex(p, '\\') == -1;
  }
}

=== FILE: store.dfy ===
/** The session store: the capture root, one sub-folder per application, and
    the operations that save, deduplicate, assemble, remove and clear
    screenshots there (python_backend/desktop_app.py). The file system is
    modelled as one ordered list of file paths; the order of a folder's
    files in that list is the order in which the folder is iterated. */
module SessionStore {
  import opened Optional
  import opened Names

  /** Where a file lives: the capture root, the application folder of that
      name directly under it, or any other directory on the machine. */
  datatype Dir = Root | App(folder: string) | Elsewhere(location: string)

  datatype Path = Path(dir: Dir, name: string)

  /** `screenshots_dir / clean`. pathlib drops an empty or `.` part, which
      leaves the root itself, and keeps `..`, which names the root's parent,
      outside the capture tree. Any other name is an application folder. */
  function FolderOf(clean: string): (d: Dir)
    ensures d == Root <==> clean == "" || clean == "."
    ensures d == Elsewhere("..") <==> clean == ".."
    ensures d.App? <==> clean != "" && clean != "." && clean != ".."
    ensures d.App? ==> d == App(clean)
  {
    if clean == "" || clean == "." then Root
    else if clean == ".." then Elsewhere("..")
    else App(clean)
  }

  /** `.replace('.exe', '')` is a single pass, so application names made of
      dots and `.exe` clean to `.` and `..`: the first files its images in
      the capture root itself, the second beside the root. */
  lemma DotNamesLeaveTheFolders()
    ensures FolderOf(CleanAppName("..exe")) == Root
    ensures FolderOf(CleanAppName("...exe")) == Elsewhere("..")
  {
    OneDotCleansTo();
    TwoDotsCleanTo();
  }

  /** `..exe` loses its `.exe` and keeps one dot. */
  lemma OneDotCleansTo()
    ensures CleanAppName("..exe") == "."
  {
    OneDotRemoval();
    CleanedTo("..exe", ".", ".exe");
  }

  /** `...exe` loses its `.exe` and keeps two dots. */
  lemma TwoDotsCleanTo()
    ensures CleanAppName("...exe") == ".."
  {
    TwoDotsRemoval();
    CleanedTo("...exe", "..", ".exe");
  }

  lemma OneDotRemoval()
    ensures RemoveAll("..exe", ".exe") == "."
  {
    var x := "..exe";
    assert x[..4] != ".exe" && x[1..] == ".exe";
    assert RemoveAll(".exe", ".exe") == [] by {
      assert ".exe"[..4] == ".exe" && ".exe"[4..] == [];
    }
    assert RemoveAll(x, ".exe") == [x[0]] + RemoveAll(x[1..], ".exe");
  }

  lemma TwoDotsRemoval()
    ensures RemoveAll("...exe", ".exe") == ".."
  {
    var x := "...exe";
    OneDotRemoval();
    assert x[..4] != ".exe" && x[1..] == "..exe";
    assert RemoveAll(x, ".exe") == [x[0]] + RemoveAll(x[1..], ".exe");
  }

  // ------------------------------------------------------------------
  // Ordered file lists

  predicate Distinct<T(==)>(s: seq<T>) {
    forall i, j :: 0 <= i < j < |s| ==> s[i] != s[j]
  }

  function Elems<T(==)>(s: seq<T>): set<T> {
    set x | x in s
  }

  /** The files of s that are not in gone, in their order. */
  function Minus(s: seq<Path>, gone: set<Path>): (r: seq<Path>)
    ensures forall p :: p in r <==> p in s && p !in gone
    ensures Distinct(s) ==> Distinct(r)
  {
    if s == [] then []
    else
      var rest := Minus(s[1..], gone);
      assert Distinct(s) ==> Distinct(s[1..]) && s[0] !in s[1..];
      if s[0] in gone then rest else [s[0]] + rest
  }

  lemma {:induction false} MinusUnion(s: seq<Path>, a: set<Path>, b: set<Path>)
    ensures Minus(Minus(s, a), b) == Minus(s, a + b)
  {
    if s != [] {
      MinusUnion(s[1..], a, b);
    }
  }

  /** Deletion works file by file, so the remaining files keep their order:
      deleting from a list made of two parts deletes from each part. */
  lemma {:induction false} MinusKeepsOrder(front: seq<Path>, back: seq<Path>, gone: set<Path>)
    ensures Minus(front + back, gone) == Minus(front, gone) + Minus(back, gone)
  {
    if front == [] {
      assert front + back == back;
    } else {
      assert (front + back)[1..] == front[1..] + back;
      MinusKeepsOrder(front[1..], back, gone);
    }
  }

  lemma {:induction false} MinusAgree(s: seq<Path>, a: set<Path>, b: set<Path>)
    requires forall p :: p in s ==> (p in a <==> p in b)
    ensures Minus(s, a) == Minus(s, b)
  {
    if s != [] {
      MinusAgree(s[1..], a, b);
    }
  }

  lemma {:induction false} MinusNothing(s: seq<Path>, a: set<Path>)
    requires forall p :: p in s ==> p !in a
    ensures Minus(s, a) == s
  {
    if s != [] {
      MinusNothing(s[1..], a);
      assert [s[0]] + s[1..] == s;
    }
  }

  /** A file written at p: created at the end of the order if absent,
      overwritten in place if present. */
  function Add(s: seq<Path>, p: Path): (r: seq<Path>)
    ensures forall q :: q in r <==> q in s || q == p
    ensures Distinct(s) ==> Distinct(r)
  {
    if p in s then s else s + [p]
  }

  /** `shutil.move(src, dst)` for an existing src: src disappears and dst
      exists, overwritten if it was there; moving a file onto itself changes
      nothing. */
  function MoveFile(s: seq<Path>, src: Path, dst: Path): seq<Path> {
    if src == dst then s else Add(Minus(s, {src}), dst)
  }

  /** The entries of directory d whose names end with ext, in iteration
      order: `d.glob('*' + ext)`, and with ext empty the files `d.iterdir()`
      yields. */
  function Listing(s: seq<Path>, d: Dir, ext: string): (r: seq<Path>)
    ensures forall p :: p in r <==> p in s && p.dir == d && EndsWith(p.name, ext)
    ensures Distinct(s) ==> Distinct(r)
  {
    if s == [] then []
    else
      var rest := Listing(s[1..], d, ext);
      assert Distinct(s) ==> Distinct(s[1..]) && s[0] !in s[1..];
      if s[0].dir == d && EndsWith(s[0].name, ext) then [s[0]] + rest else rest
  }

  lemma {:induction false} ListingMinus(s: seq<Path>, d: Dir, ext: string, gone: set<Path>)
    ensures Listing(Minus(s, gone), d, ext) == Minus(Listing(s, d, ext), gone)
  {
    if s != [] {
      ListingMinus(s[1..], d, ext, gone);
    }
  }

  lemma {:induction false} DistinctElems<T>(s: seq<T>)
    requires Distinct(s)
    ensures |Elems(s)| == |s|
  {
    if s != [] {
      DistinctElems(s[1..]);
      assert Elems(s) == Elems(s[1..]) + {s[0]};
      assert s[0] !in Elems(s[1..]);
    }
  }

  // ------------------------------------------------------------------
  // Duplicate detection on save (lines 438-451)

  /** The first of entries that the pattern `{clean}_*.png` matches. */
  function FirstSaved(entries: seq<Path>, clean: string): (r: Option<Path>)
    ensures r.None? <==> forall k :: 0 <= k < |entries| ==> !MatchesSavedGlob(entries[k].name, clean)
    ensures r.Some? ==> (exists k :: 0 <= k < |entries| && entries[k] == r.value
                           && MatchesSavedGlob(r.value.name, clean)
                           && forall j :: 0 <= j < k ==> !MatchesSavedGlob(entries[j].name, clean))
  {
    if entries == [] then None
    else if MatchesSavedGlob(entries[0].name, clean) then Some(entries[0])
    else
      var r := FirstSaved(entries[1..], clean);
      assert r.Some? ==> (exists k :: 0 <= k < |entries[1..]| && entries[1..][k] == r.value
                            && forall j :: 0 <= j < k ==> !MatchesSavedGlob(entries[1..][j].name, clean));
      r
  }

  /** The loop of check_duplicate_screenshot over a folder's entries: the
      first one `{clean}_*.png` matches. */
  method ScanSaved(entries: seq<Path>, clean: string) returns (found: Option<Path>)
    ensures found == FirstSaved(entries, clean)
  {
    var i := 0;
    while i < |entries|
      invariant 0 <= i <= |entries|
      invariant FirstSaved(entries, clean) == FirstSaved(entries[i..], clean)
    {
      if MatchesSavedGlob(entries[i].name, clean) {
        return Some(entries[i]);
      }
      assert entries[i..][1..] == entries[i + 1..];
      i := i + 1;
    }
    return None;
  }

  /** When nothing in the folder matches the pattern, the save adds exactly
      one file, `{clean}_{stamp}.png`, at the end of the folder, and the source
      is gone. */
  lemma SaveAddsOneFile(s: seq<Path>, src: Path, dir: Dir, clean: string, now: Moment)
    requires Distinct(s) && src in s
    requires FirstSaved(Listing(s, dir, ""), clean).None?
    ensures MoveFile(s, src, Path(dir, StampedName(clean, now)))
      == Minus(s, {src}) + [Path(dir, StampedName(clean, now))]
  {
    var dst := Path(dir, StampedName(clean, now));
    StampedNameMatchesGlob(clean, now);
  }

  // ------------------------------------------------------------------
  // Session assembly (lines 607-687)

  /** One screenshot as the session request describes it. */
  datatype ShotInfo = ShotInfo(path: Path, name: string, description: Option<string>, timestamp: Option<string>)

  /** One manifest entry. */
  datatype Entry = Entry(imageName: string, imagePath: Path, description: string, timestamp: string)

  /** The content written to `<clean>.json`. */
  datatype Manifest = Manifest(applicationName: string, applicationPath: Option<string>,
                               sessionTimestamp: string, screenshots: seq<Entry>)

  /** Where a screenshot's file is found: at its own path, or else in the
      capture root under its file name. */
  function Locate(s: seq<Path>, p: Path): (r: Option<Path>)
    ensures r.Some? ==> r.value in s && (r.value == p || r.value == Path(Root, p.name))
    ensures r.None? <==> p !in s && Path(Root, p.name) !in s
  {
    if p in s then Some(p) else if Path(Root, p.name) in s then Some(Path(Root, p.name)) else None
  }

  function GetOr(o: Option<string>, default: string): string {
    if o.Some? then o.value else default
  }

  /** The two clock readings of one pass of the session loop: the one in the
      new file name (line 652), and the later one behind the default entry
      timestamp (line 664), which is evaluated after the move. */
  datatype Tick = Tick(file: Moment, entry: Moment)

  /** The effect of one iteration of the session loop: a located screenshot
      is moved into the folder under its stamped clean name and produces an
      entry; a missing one changes nothing. */
  function SessionStep(s: seq<Path>, dir: Dir, info: ShotInfo, tick: Tick): (seq<Path>, Option<Entry>) {
    match Locate(s, info.path)
    case None => (s, None)
    case Some(src) =>
      var dst := Path(dir, StampedName(ReplaceReserved(info.name), tick.file));
      (MoveFile(s, src, dst),
       Some(Entry(info.name, dst, GetOr(info.description, ""), GetOr(info.timestamp, IsoFormat(tick.entry)))))
  }

  function OptionSeq(e: Option<Entry>): seq<Entry> {
    if e.Some? then [e.value] else []
  }

  /** The files and the manifest entries after the loop has handled infos,
      clock[i] being the two clock readings taken while infos[i] is handled. */
  function SessionFold(s: seq<Path>, dir: Dir, infos: seq<ShotInfo>, clock: seq<Tick>): (seq<Path>, seq<Entry>)
    requires |clock| == |infos|
    decreases |infos|
  {
    if infos == [] then (s, [])
    else
      var n := |infos| - 1;
      var (f, es) := SessionFold(s, dir, infos[..n], clock[..n]);
      var (f2, e) := SessionStep(f, dir, infos[n], clock[n]);
      (f2, es + OptionSeq(e))
  }

  /** Handling one more screenshot is one more step of the fold. */
  lemma SessionFoldStep(s: seq<Path>, dir: Dir, infos: seq<ShotInfo>, clock: seq<Tick>, i: nat)
    requires |clock| == |infos| && i < |infos|
    ensures var before := SessionFold(s, dir, infos[..i], clock[..i]);
      var step := SessionStep(before.0, dir, infos[i], clock[i]);
      SessionFold(s, dir, infos[..i + 1], clock[..i + 1]) == (step.0, before.1 + OptionSeq(step.1))
  {
    assert infos[..i + 1][..i] == infos[..i] && clock[..i + 1][..i] == clock[..i];
  }

  /** The session loop only ever creates `.png` files inside the application
      folder, so it cannot recreate the manifest it removed first. */
  lemma {:induction false} SessionFoldCreatesOnlyImages(s: seq<Path>, dir: Dir, infos: seq<ShotInfo>, clock: seq<Tick>)
    requires |clock| == |infos|
    ensures forall p :: p in SessionFold(s, dir, infos, clock).0 && p !in s ==> p.dir == dir && IsPng(p.name)
    decreases |infos|
  {
    if infos != [] {
      var n := |infos| - 1;
      SessionFoldCreatesOnlyImages(s, dir, infos[..n], clock[..n]);
    }
  }

  /** The loop removes no file except the screenshots it was given, found at
      their own path or in the root under their name. */
  predicate IsSourceOf(p: Path, infos: seq<ShotInfo>) {
    exists i :: 0 <= i < |infos| && (p == infos[i].path || p == Path(Root, infos[i].path.name))
  }

  lemma {:induction false} SessionFoldRemovesOnlySources(s: seq<Path>, dir: Dir, infos: seq<ShotInfo>, clock: seq<Tick>)
    requires |clock| == |infos|
    ensures forall p :: p in s && p !in SessionFold(s, dir, infos, clock).0 ==> IsSourceOf(p, infos)
    decreases |infos|
  {
    if infos != [] {
      var n := |infos| - 1;
      SessionFoldRemovesOnlySources(s, dir, infos[..n], clock[..n]);
      var f := SessionFold(s, dir, infos[..n], clock[..n]).0;
      StepRemovesOnlySource(f, dir, infos[n], clock[n]);
      forall p | p in s && p !in SessionFold(s, dir, infos, clock).0 ensures IsSourceOf(p, infos) {
        if p !in f {
          assert IsSourceOf(p, infos[..n]);
          var i :| 0 <= i < n && (p == infos[..n][i].path || p == Path(Root, infos[..n][i].path.name));
          assert infos[i] == infos[..n][i];
        } else {
          assert p == infos[n].path || p == Path(Root, infos[n].path.name);
        }
      }
    }
  }

  /** One step removes at most the screenshot it handles. */
  lemma StepRemovesOnlySource(f: seq<Path>, dir: Dir, info: ShotInfo, tick: Tick)
    ensures forall p :: p in f && p !in SessionStep(f, dir, info, tick).0 ==>
      p == info.path || p == Path(Root, info.path.name)
  {
  }

  /** An entry names a `.png` in dir whose logical name is the clean form
      of the entry's name. */
  predicate FiledUnder(e: Entry, dir: Dir) {
    e.imagePath.dir == dir && IsPng(e.imagePath.name) && BaseKey(e.imagePath) == ReplaceReserved(e.imageName)
  }

  lemma StepFiled(s: seq<Path>, dir: Dir, info: ShotInfo, tick: Tick)
    ensures var e := SessionStep(s, dir, info, tick).1; e.Some? ==> FiledUnder(e.value, dir)
  {
    LogicalNameOfStampedName(ReplaceReserved(info.name), tick.file);
  }

  /** Every manifest entry names a `.png` in the application folder whose
      logical name is the step's clean name: the key the bulk deduplication
      later groups it by. */
  lemma {:induction false} SessionEntriesFiledByName(s: seq<Path>, dir: Dir, infos: seq<ShotInfo>, clock: seq<Tick>)
    requires |clock| == |infos|
    ensures forall k :: 0 <= k < |SessionFold(s, dir, infos, clock).1| ==> FiledUnder(SessionFold(s, dir, infos, clock).1[k], dir)
    decreases |infos|
  {
    if infos != [] {
      var n := |infos| - 1;
      SessionEntriesFiledByName(s, dir, infos[..n], clock[..n]);
      var f := SessionFold(s, dir, infos[..n], clock[..n]).0;
      var es := SessionFold(s, dir, infos[..n], clock[..n]).1;
      assert forall k :: 0 <= k < |es| ==> FiledUnder(es[k], dir);
      var e := SessionStep(f, dir, infos[n], clock[n]).1;
      StepFiled(f, dir, infos[n], clock[n]);
      var all := es + OptionSeq(e);
      assert SessionFold(s, dir, infos, clock).1 == all;
      forall k | 0 <= k < |all| ensures FiledUnder(all[k], dir) {
        if k < |es| {
          assert all[k] == es[k];
          assert FiledUnder(es[k], dir);
        } else {
          assert e.Some?;
          assert all[k] == e.value;
          assert FiledUnder(e.value, dir);
        }
      }
    }
  }

  /** xs is obtained from ys by deleting elements, keeping the order. */
  predicate IsSubsequence(xs: seq<string>, ys: seq<string>)
    decreases |ys|
  {
    if ys == [] then xs == []
    else
      var n := |ys| - 1;
      IsSubsequence(xs, ys[..n])
      || (xs != [] && xs[|xs| - 1] == ys[n] && IsSubsequence(xs[..|xs| - 1], ys[..n]))
  }

  function ImageNames(entries: seq<Entry>): (r: seq<string>)
    ensures |r| == |entries| && forall k :: 0 <= k < |r| ==> r[k] == entries[k].imageName
  {
    if entries == [] then [] else ImageNames(entries[..|entries| - 1]) + [entries[|entries| - 1].imageName]
  }

  function StepNames(infos: seq<ShotInfo>): (r: seq<string>)
    ensures |r| == |infos| && forall k :: 0 <= k < |r| ==> r[k] == infos[k].name
  {
    if infos == [] then [] else StepNames(infos[..|infos| - 1]) + [infos[|infos| - 1].name]
  }

  /** The manifest lists the screenshots it found in the order they were
      given, skipping those it could not find. */
  lemma {:induction false} SessionEntriesInInputOrder(s: seq<Path>, dir: Dir, infos: seq<ShotInfo>, clock: seq<Tick>)
    requires |clock| == |infos|
    ensures IsSubsequence(ImageNames(SessionFold(s, dir, infos, clock).1), StepNames(infos))
    decreases |infos|
  {
    if infos != [] {
      var n := |infos| - 1;
      SessionEntriesInInputOrder(s, dir, infos[..n], clock[..n]);
      var before := SessionFold(s, dir, infos[..n], clock[..n]);
      var e := SessionStep(before.0, dir, infos[n], clock[n]).1;
      var xs := ImageNames(before.1);
      var ys := StepNames(infos[..n]);
      assert SessionFold(s, dir, infos, clock).1 == before.1 + OptionSeq(e);
      assert StepNames(infos) == ys + [infos[n].name];
      if e.Some? {
        assert ImageNames(before.1 + [e.value]) == xs + [infos[n].name];
        SubsequenceSnoc(xs, ys, infos[n].name);
      } else {
        assert before.1 + OptionSeq(e) == before.1;
        SubsequenceSnoc(xs, ys, infos[n].name);
      }
    }
  }

  /** The names of the screenshots the loop finds, in input order: a shot
      counts when it is located in the files as the earlier steps left
      them. */
  function FoundNames(s: seq<Path>, dir: Dir, infos: seq<ShotInfo>, clock: seq<Tick>): seq<string>
    requires |clock| == |infos|
    decreases |infos|
  {
    if infos == [] then []
    else
      var n := |infos| - 1;
      var before := SessionFold(s, dir, infos[..n], clock[..n]).0;
      FoundNames(s, dir, infos[..n], clock[..n]) + (if Locate(before, infos[n].path).Some? then [infos[n].name] else [])
  }

  /** The manifest has one entry per screenshot found, in input order, and
      none for a screenshot that was not found. */
  lemma {:induction false} SessionEntriesAreFoundShots(s: seq<Path>, dir: Dir, infos: seq<ShotInfo>, clock: seq<Tick>)
    requires |clock| == |infos|
    ensures ImageNames(SessionFold(s, dir, infos, clock).1) == FoundNames(s, dir, infos, clock)
    decreases |infos|
  {
    if infos != [] {
      var n := |infos| - 1;
      SessionEntriesAreFoundShots(s, dir, infos[..n], clock[..n]);
      var before := SessionFold(s, dir, infos[..n], clock[..n]);
      var e := SessionStep(before.0, dir, infos[n], clock[n]).1;
      assert SessionFold(s, dir, infos, clock).1 == before.1 + OptionSeq(e);
      if e.Some? {
        var all := before.1 + [e.value];
        assert all[..|all| - 1] == before.1;
      } else {
        assert before.1 + OptionSeq(e) == before.1;
      }
    }
  }

  /** One more element of ys may be matched or skipped. */
  lemma SubsequenceSnoc(xs: seq<string>, ys: seq<string>, y: string)
    requires IsSubsequence(xs, ys)
    ensures IsSubsequence(xs + [y], ys + [y]) && IsSubsequence(xs, ys + [y])
  {
    var ys2 := ys + [y];
    var xs2 := xs + [y];
    assert ys2[..|ys|] == ys && xs2[..|xs|] == xs;
  }

  // ------------------------------------------------------------------
  // Bulk deduplication (lines 1104-1119)

  /** The key the bulk deduplication groups a file by: its logical name. */
  function BaseKey(p: Path): string {
    LogicalName(p.name)
  }

  /** The keys of ps. */
  function Bases(ps: seq<Path>, key: Path -> string): set<string>
  {
    if ps == [] then {} else Bases(ps[..|ps| - 1], key) + {key(ps[|ps| - 1])}
  }

  lemma {:induction false} BasesMembers(ps: seq<Path>, key: Path -> string)
    ensures forall k :: 0 <= k < |ps| ==> key(ps[k]) in Bases(ps, key)
    ensures forall b :: b in Bases(ps, key) ==> exists k :: 0 <= k < |ps| && key(ps[k]) == b
    decreases |ps|
  {
    if ps != [] {
      var n := |ps| - 1;
      BasesMembers(ps[..n], key);
      assert forall k :: 0 <= k < n ==> ps[..n][k] == ps[k];
    }
  }

  /** The files of ps that a scan keeping the first file per key deletes:
      those whose key an earlier file already had. */
  function Duplicates(ps: seq<Path>, key: Path -> string): seq<Path>
  {
    if ps == [] then []
    else
      var n := |ps| - 1;
      Duplicates(ps[..n], key) + (if key(ps[n]) in Bases(ps[..n], key) then [ps[n]] else [])
  }

  /** One more file either is one more duplicate or brings a new key. */
  lemma DuplicatesStep(ps: seq<Path>, key: Path -> string, i: nat)
    requires i < |ps|
    ensures Bases(ps[..i + 1], key) == Bases(ps[..i], key) + {key(ps[i])}
    ensures key(ps[i]) in Bases(ps[..i], key) ==>
      Duplicates(ps[..i + 1], key) == Duplicates(ps[..i], key) + [ps[i]] &&
      Elems(Duplicates(ps[..i + 1], key)) == Elems(Duplicates(ps[..i], key)) + {ps[i]}
    ensures key(ps[i]) !in Bases(ps[..i], key) ==> Duplicates(ps[..i + 1], key) == Duplicates(ps[..i], key)
  {
    var next := ps[..i + 1];
    assert next[..i] == ps[..i] && next[i] == ps[i];
  }

  /** The deleted count is the number of files minus the number of distinct
      keys. */
  lemma {:induction false} DuplicatesCount(ps: seq<Path>, key: Path -> string)
    ensures |Duplicates(ps, key)| + |Bases(ps, key)| == |ps|
    decreases |ps|
  {
    if ps != [] {
      var n := |ps| - 1;
      DuplicatesCount(ps[..n], key);
      var b := key(ps[n]);
      if b in Bases(ps[..n], key) {
        assert Bases(ps, key) == Bases(ps[..n], key);
      } else {
        assert |Bases(ps[..n], key) + {b}| == |Bases(ps[..n], key)| + 1;
      }
    }
  }

  /** ps[j] has a key some earlier file of ps also has. */
  predicate HasEarlierTwin(ps: seq<Path>, key: Path -> string, j: int)
    requires 0 <= j < |ps|
  {
    exists k :: 0 <= k < j && key(ps[k]) == key(ps[j])
  }

  lemma {:induction false} DuplicatesInside(ps: seq<Path>, key: Path -> string)
    ensures forall p :: p in Duplicates(ps, key) ==> p in ps
    decreases |ps|
  {
    if ps != [] {
      DuplicatesInside(ps[..|ps| - 1], key);
    }
  }

  /** A file is deleted exactly when an earlier file has its key: the first
      file seen for each key is the one kept. */
  lemma DuplicatesAreLaterTwins(ps: seq<Path>, key: Path -> string)
    requires Distinct(ps)
    ensures forall j :: 0 <= j < |ps| ==> (ps[j] in Duplicates(ps, key) <==> HasEarlierTwin(ps, key, j))
  {
    forall j | 0 <= j < |ps| ensures ps[j] in Duplicates(ps, key) <==> HasEarlierTwin(ps, key, j) {
      DuplicateIffLaterTwin(ps, key, j);
    }
  }

  lemma {:induction false} DuplicateIffLaterTwin(ps: seq<Path>, key: Path -> string, j: nat)
    requires Distinct(ps) && j < |ps|
    ensures ps[j] in Duplicates(ps, key) <==> HasEarlierTwin(ps, key, j)
    decreases |ps|
  {
    var n := |ps| - 1;
    var init := ps[..n];
    assert forall k :: 0 <= k < n ==> init[k] == ps[k];
    assert Distinct(init);
    var tail := if key(ps[n]) in Bases(init, key) then [ps[n]] else [];
    assert Duplicates(ps, key) == Duplicates(init, key) + tail;
    if j < n {
      DuplicateIffLaterTwin(init, key, j);
      assert ps[j] !in tail;
      assert HasEarlierTwin(ps, key, j) <==> HasEarlierTwin(init, key, j);
    } else {
      DuplicatesInside(init, key);
      assert ps[n] !in init by {
        forall k | 0 <= k < n ensures init[k] != ps[n] {
          assert init[k] == ps[k];
        }
      }
      BasesMembers(init, key);
      assert HasEarlierTwin(ps, key, n) <==> key(ps[n]) in Bases(init, key);
    }
  }

  /** After the scan each key has exactly one file left: two kept files never
      share a key, and every key keeps a file. */
  lemma OnePerKey(ps: seq<Path>, key: Path -> string)
    requires Distinct(ps)
    ensures forall i, j :: (0 <= i < j < |ps| && ps[i] !in Duplicates(ps, key) && ps[j] !in Duplicates(ps, key)
                            ==> key(ps[i]) != key(ps[j]))
    ensures forall b :: b in Bases(ps, key) ==>
      exists i :: 0 <= i < |ps| && ps[i] !in Duplicates(ps, key) && key(ps[i]) == b
  {
    DuplicatesAreLaterTwins(ps, key);
    forall b | b in Bases(ps, key)
      ensures exists i :: 0 <= i < |ps| && ps[i] !in Duplicates(ps, key) && key(ps[i]) == b
    {
      var i := FirstWithKey(ps, key, b);
      assert !HasEarlierTwin(ps, key, i);
    }
  }

  /** The bulk deduplication of a folder deletes only that folder's `.png`
      images: its other files and every other directory are left alone. */
  lemma {:induction false} CleanupTouchesOnlyFolderImages(s: seq<Path>, dir: Dir)
    ensures var gone := Elems(Duplicates(Listing(s, dir, ".png"), BaseKey));
      forall p :: p in s && !(p.dir == dir && IsPng(p.name)) ==> p in Minus(s, gone)
    ensures forall p :: p in Duplicates(Listing(s, dir, ".png"), BaseKey) ==>
      p in s && p.dir == dir && IsPng(p.name)
  {
    DuplicatesInside(Listing(s, dir, ".png"), BaseKey);
  }

  lemma FirstWithKey(ps: seq<Path>, key: Path -> string, b: string) returns (i: nat)
    requires b in Bases(ps, key)
    ensures i < |ps| && key(ps[i]) == b
    ensures forall k :: 0 <= k < i ==> key(ps[k]) != b
  {
    BasesMembers(ps, key);
    i := 0;
    while key(ps[i]) != b
      invariant i < |ps| && forall k :: 0 <= k < i ==> key(ps[k]) != b
      invariant exists m :: i <= m < |ps| && key(ps[m]) == b
      decreases |ps| - i
    {
      i := i + 1;
    }
  }

  // ------------------------------------------------------------------
  // Removal and the bulk clear (lines 721-740, 1008-1044)

  /** `file_path.with_suffix('.json')`: the metadata file beside an image. */
  function Sidecar(p: Path): Path {
    Path(p.dir, WithSuffix(p.name, ".json"))
  }

  /** What the bulk clear deletes: the root's images and metadata files and
      every application folder with its content. */
  predicate Swept(p: Path) {
    (p.dir == Root && (IsPng(p.name) || IsJson(p.name))) || p.dir.App?
  }

  function InFolders(s: seq<Path>, fs: seq<string>): set<Path> {
    set p | p in s && p.dir.App? && p.dir.folder in fs
  }

  // ------------------------------------------------------------------
  // Replies

  datatype SaveReply =
    | SaveFailed(error: string)
    | Saved(path: Path, filename: string)
    | AlreadySaved(existing: Path)

  datatype SessionReply = SessionCreated(manifestFile: Path, folder: Dir, manifest: Manifest, count: nat)

  datatype CleanupReply = NoFolderToClean | Cleaned(removed: nat)

  datatype RemoveReply = Removed(name: string) | RemoveFailed(error: string)

  /** The folder a save files into: the application's clean name when one is
      given, the root otherwise (lines 458-462). */
  function SaveFolderName(application: Option<string>): string {
    if application.Some? && application.value != "" then CleanAppName(application.value) else ""
  }

  /** The folder list after `mkdir(exist_ok=True)` of `screenshots_dir / clean`. */
  function WithFolder(folders: seq<string>, clean: string): seq<string> {
    if !FolderOf(clean).App? || clean in folders then folders else folders + [clean]
  }

  // ------------------------------------------------------------------
  // The store

  class Store {
    /** The files the operations see, in directory iteration order. */
    var files: seq<Path>
    /** The application folders under the capture root, in iteration order. */
    var folders: seq<string>

    ghost predicate Valid()
      reads this
    {
      && Distinct(files) && Distinct(folders) && "" !in folders
      && forall p :: p in files && p.dir.App? ==> p.dir.folder in folders
    }

    constructor ()
      ensures Valid() && files == [] && folders == []
    {
      files := [];
      folders := [];
    }

    predicate DirExists(d: Dir)
      reads this
    {
      !d.App? || d.folder in folders
    }

    /** `(screenshots_dir / clean).mkdir(exist_ok=True)`. */
    method MakeFolder(clean: string) returns (dir: Dir)
      requires Valid()
      modifies this
      ensures Valid() && dir == FolderOf(clean) && DirExists(dir)
      ensures files == old(files) && folders == WithFolder(old(folders), clean)
    {
      dir := FolderOf(clean);
      if dir.App? && clean !in folders {
        folders := folders + [clean];
      }
    }

    /** `p.unlink()`. */
    method Unlink(p: Path)
      requires Valid()
      modifies this
      ensures Valid() && files == Minus(old(files), {p}) && folders == old(folders)
    {
      files := Minus(files, {p});
    }

    /** Unlink each of ps in turn. */
    method UnlinkAll(ps: seq<Path>) returns (count: nat)
      requires Valid()
      modifies this
      ensures Valid() && folders == old(folders)
      ensures files == Minus(old(files), Elems(ps)) && count == |ps|
    {
      MinusNothing(files, {});
      assert Elems(ps[..0]) == {};
      count := 0;
      while count < |ps|
        invariant 0 <= count <= |ps|
        invariant Valid() && folders == old(folders)
        invariant files == Minus(old(files), Elems(ps[..count]))
      {
        MinusUnion(old(files), Elems(ps[..count]), {ps[count]});
        assert Elems(ps[..count + 1]) == Elems(ps[..count]) + {ps[count]} by {
          assert ps[..count + 1] == ps[..count] + [ps[count]];
        }
        Unlink(ps[count]);
        count := count + 1;
      }
      assert ps[..count] == ps;
    }

    /** A file written at p, as the capture engine and the manifest writer do. */
    method Write(p: Path)
      requires Valid() && DirExists(p.dir)
      modifies this
      ensures Valid() && files == Add(old(files), p) && folders == old(folders)
    {
      files := Add(files, p);
    }

    /** `shutil.move(src, dst)` of an existing src. */
    method Move(src: Path, dst: Path)
      requires Valid() && src in files && DirExists(dst.dir)
      modifies this
      ensures Valid() && files == MoveFile(old(files), src, dst) && folders == old(folders)
    {
      if src != dst {
        files := Add(Minus(files, {src}), dst);
      }
    }

    /** check_duplicate_screenshot: the first file of the folder that
        `{clean}_*.png` matches, or nothing when the folder does not exist. */
    method FindDuplicate(dir: Dir, clean: string) returns (found: Option<Path>)
      requires Valid()
      ensures found == if DirExists(dir) then FirstSaved(Listing(files, dir, ""), clean) else None
    {
      if !DirExists(dir) {
        return None;
      }
      found := ScanSaved(Listing(files, dir, ""), clean);
    }

    /** save_screenshot_with_metadata. The description is accepted and not
        stored. */
    method SaveWithMetadata(source: Path, name: string, application: Option<string>, now: Moment)
      returns (reply: SaveReply)
      requires Valid()
      modifies this
      ensures Valid()
      ensures folders == WithFolder(old(folders), SaveFolderName(application))
      ensures var dir := FolderOf(SaveFolderName(application));
        var clean := ReplaceReserved(name);
        var dup := FirstSaved(Listing(old(files), dir, ""), clean);
        var dst := Path(dir, StampedName(clean, now));
        && (source !in old(files) ==> reply == SaveFailed("Screenshot file not found") && files == old(files))
        && (source in old(files) && dup.Some? ==> reply == AlreadySaved(dup.value) && files == Minus(old(files), {source}))
        && (source in old(files) && dup.None? ==>
              reply == Saved(dst, dst.name) && files == Minus(old(files), {source}) + [dst])
    {
      var dir := MakeFolder(SaveFolderName(application));
      if source !in files {
        return SaveFailed("Screenshot file not found");
      }
      var clean := ReplaceReserved(name);
      var existing := FindDuplicate(dir, clean);
      if existing.Some? {
        Unlink(source);
        return AlreadySaved(existing.value);
      }
      var newName := StampedName(clean, now);
      SaveAddsOneFile(files, source, dir, clean, now);
      Move(source, Path(dir, newName));
      return Saved(Path(dir, newName), newName);
    }

    /** create_session_json: drop the old manifest, move every screenshot
        that can be found into the folder, write the new manifest. clock[i]
        holds the two clock readings taken while shots[i] is handled;
        sessionNow is the reading stored as the session's timestamp. */
    method CreateSession(applicationName: string, applicationPath: Option<string>, shots: seq<ShotInfo>,
                         clock: seq<Tick>, sessionNow: Moment)
      returns (reply: SessionReply)
      requires Valid() && |clock| == |shots|
      modifies this
      ensures Valid()
      ensures var clean := CleanAppName(applicationName);
        var dir := FolderOf(clean);
        var manifest := Path(dir, clean + ".json");
        var fold := SessionFold(Minus(old(files), {manifest}), dir, shots, clock);
        && folders == WithFolder(old(folders), clean)
        && manifest !in fold.0
        && files == fold.0 + [manifest]
        && reply == SessionCreated(manifest, dir,
                                   Manifest(applicationName, applicationPath, IsoFormat(sessionNow), fold.1),
                                   |fold.1|)
    {
      var clean := CleanAppName(applicationName);
      var dir := MakeFolder(clean);
      var manifest := Path(dir, clean + ".json");
      if manifest in files {
        Unlink(manifest);
      } else {
        MinusNothing(files, {manifest});
      }
      ghost var start := files;
      var entries := FileShots(dir, shots, clock);
      SessionFoldCreatesOnlyImages(start, dir, shots, clock);
      JsonIsNotPng(clean + ".json");
      Write(manifest);
      reply := SessionCreated(manifest, dir, Manifest(applicationName, applicationPath, IsoFormat(sessionNow), entries),
                              |entries|);
    }

    /** The loop of lines 630-667 over the request's screenshots. */
    method FileShots(dir: Dir, shots: seq<ShotInfo>, clock: seq<Tick>) returns (entries: seq<Entry>)
      requires Valid() && DirExists(dir) && |clock| == |shots|
      modifies this
      ensures Valid() && folders == old(folders)
      ensures files == SessionFold(old(files), dir, shots, clock).0
      ensures entries == SessionFold(old(files), dir, shots, clock).1
    {
      ghost var start := files;
      entries := [];
      var i := 0;
      while i < |shots|
        invariant 0 <= i <= |shots|
        invariant Valid() && folders == old(folders)
        invariant (files, entries) == SessionFold(start, dir, shots[..i], clock[..i])
      {
        SessionFoldStep(start, dir, shots, clock, i);
        var e := FileShot(dir, shots[i], clock[i]);
        entries := entries + OptionSeq(e);
        i := i + 1;
      }
      assert shots[..|shots|] == shots && clock[..|clock|] == clock;
    }

    /** One pass of the session loop (lines 630-667). */
    method FileShot(dir: Dir, info: ShotInfo, tick: Tick) returns (e: Option<Entry>)
      requires Valid() && DirExists(dir)
      modifies this
      ensures Valid() && folders == old(folders)
      ensures (files, e) == SessionStep(old(files), dir, info, tick)
    {
      var src := Locate(files, info.path);
      if src.None? {
        return None;
      }
      var dst := Path(dir, StampedName(ReplaceReserved(info.name), tick.file));
      Move(src.value, dst);
      e := Some(Entry(info.name, dst, GetOr(info.description, ""), GetOr(info.timestamp, IsoFormat(tick.entry))));
    }

    /** The scan of lines 1104-1119: walk ps keeping a set of the keys seen,
        unlinking each file whose key is already in it. */
    method KeepFirstPerKey(ps: seq<Path>, key: Path -> string) returns (removed: nat)
      requires Valid()
      modifies this
      ensures Valid() && folders == old(folders)
      ensures files == Minus(old(files), Elems(Duplicates(ps, key))) && removed == |Duplicates(ps, key)|
    {
      MinusNothing(files, {});
      assert Elems(Duplicates(ps[..0], key)) == {};
      var seen: set<string> := {};
      removed := 0;
      var i := 0;
      while i < |ps|
        invariant 0 <= i <= |ps|
        invariant Valid() && folders == old(folders)
        invariant seen == Bases(ps[..i], key)
        invariant removed == |Duplicates(ps[..i], key)|
        invariant files == Minus(old(files), Elems(Duplicates(ps[..i], key)))
      {
        ghost var prefix := ps[..i];
        DuplicatesStep(ps, key, i);
        var base := key(ps[i]);
        if base in seen {
          MinusUnion(old(files), Elems(Duplicates(prefix, key)), {ps[i]});
          Unlink(ps[i]);
          removed := removed + 1;
        } else {
          seen := seen + {base};
        }
        i := i + 1;
      }
      assert ps[..|ps|] == ps;
    }

    /** cleanup_duplicate_screenshots: keep the first image seen for each
        logical name and delete the rest. */
    method CleanupDuplicates(applicationName: string) returns (reply: CleanupReply)
      requires Valid()
      modifies this
      ensures Valid() && folders == old(folders)
      ensures var dir := FolderOf(CleanAppName(applicationName));
        var pngs := Listing(old(files), dir, ".png");
        && (!old(DirExists(dir)) ==> reply == NoFolderToClean && files == old(files))
        && (old(DirExists(dir)) ==>
              reply == Cleaned(|Duplicates(pngs, BaseKey)|) && files == Minus(old(files), Elems(Duplicates(pngs, BaseKey))))
    {
      var dir := FolderOf(CleanAppName(applicationName));
      if !DirExists(dir) {
        return NoFolderToClean;
      }
      var pngs := Listing(files, dir, ".png");
      var removed := KeepFirstPerKey(pngs, BaseKey);
      return Cleaned(removed);
    }

    /** cleanup_old_json_files: delete every `.json` in the folder. */
    method CleanupOldJson(applicationName: string) returns (removed: nat)
      requires Valid()
      modifies this
      ensures Valid()
      ensures var clean := CleanAppName(applicationName);
        var jsons := Listing(old(files), FolderOf(clean), ".json");
        && folders == WithFolder(old(folders), clean)
        && files == Minus(old(files), Elems(jsons))
        && removed == |jsons|
    {
      var dir := MakeFolder(CleanAppName(applicationName));
      var jsons := Listing(files, dir, ".json");
      removed := UnlinkAll(jsons);
    }

    /** remove_screenshot: delete the image and, if present, its sidecar. */
    method RemoveScreenshot(p: Path) returns (reply: RemoveReply)
      requires Valid()
      modifies this
      ensures Valid() && folders == old(folders)
      ensures p !in old(files) ==> reply == RemoveFailed("Screenshot file not found") && files == old(files)
      ensures p in old(files) ==> reply == Removed(p.name) && files == Minus(old(files), {p, Sidecar(p)})
      ensures p !in files
    {
      if p !in files {
        return RemoveFailed("Screenshot file not found");
      }
      ghost var before := files;
      Unlink(p);
      var meta := Sidecar(p);
      MinusUnion(before, {p}, {meta});
      assert {p} + {meta} == {p, meta};
      if meta in files {
        Unlink(meta);
      } else {
        MinusNothing(files, {meta});
      }
      return Removed(p.name);
    }

    /** rmtree of one application folder. */
    method RemoveFolder(f: string)
      requires Valid() && |folders| > 0 && folders[0] == f
      modifies this
      ensures Valid() && folders == old(folders)[1..]
      ensures files == Minus(old(files), InFolders(old(files), [f]))
    {
      files := Minus(files, InFolders(files, [f]));
      folders := folders[1..];
    }

    /** The loop over the root's sub-directories: rmtree each application
        folder, in iteration order. */
    method RemoveFolders() returns (count: nat)
      requires Valid()
      modifies this
      ensures Valid() && folders == [] && count == |old(folders)|
      ensures files == Minus(old(files), InFolders(old(files), old(folders)))
    {
      var subdirs := folders;
      MinusNothing(files, InFolders(files, subdirs[..0]));
      count := 0;
      while count < |subdirs|
        invariant 0 <= count <= |subdirs|
        invariant Valid() && folders == subdirs[count..]
        invariant files == Minus(old(files), InFolders(old(files), subdirs[..count]))
      {
        assert subdirs[..count + 1] == subdirs[..count] + [subdirs[count]];
        MinusUnion(old(files), InFolders(old(files), subdirs[..count]), InFolders(files, [subdirs[count]]));
        MinusAgree(old(files), InFolders(old(files), subdirs[..count]) + InFolders(files, [subdirs[count]]),
                   InFolders(old(files), subdirs[..count + 1]));
        RemoveFolder(subdirs[count]);
        count := count + 1;
      }
      assert subdirs[..count] == subdirs;
    }

    /** clear_all_screenshots: delete the root's images, then its metadata
        files, then every application folder, counting each entry removed. */
    method ClearAll() returns (cleared: nat)
      requires Valid()
      modifies this
      ensures Valid() && folders == []
      ensures forall p :: p in files <==> p in old(files) && !Swept(p)
      ensures cleared == |Listing(old(files), Root, ".png")| + |Listing(old(files), Root, ".json")| + |old(folders)|
    {
      var pngs := Listing(files, Root, ".png");
      var images := UnlinkAll(pngs);
      JsonsSurviveImageSweep(old(files));
      var jsons := Listing(files, Root, ".json");
      var metadata := UnlinkAll(jsons);
      var subdirs := RemoveFolders();
      SweepLeavesUnswept(old(files), old(folders));
      cleared := images + metadata + subdirs;
    }
  }

  /** Deleting the root's images leaves its metadata files listed as before. */
  lemma JsonsSurviveImageSweep(s: seq<Path>)
    ensures Listing(Minus(s, Elems(Listing(s, Root, ".png"))), Root, ".json") == Listing(s, Root, ".json")
  {
    var pngs := Listing(s, Root, ".png");
    ListingMinus(s, Root, ".json", Elems(pngs));
    forall p | p in Listing(s, Root, ".json") ensures p !in Elems(pngs) {
      JsonIsNotPng(p.name);
    }
    MinusNothing(Listing(s, Root, ".json"), Elems(pngs));
  }

  /** After the three sweeps exactly the files outside them remain, given
      that every application file lies in a known folder. */
  lemma SweepLeavesUnswept(s: seq<Path>, fs: seq<string>)
    requires forall p :: p in s && p.dir.App? ==> p.dir.folder in fs
    ensures var mid := Minus(Minus(s, Elems(Listing(s, Root, ".png"))), Elems(Listing(s, Root, ".json")));
      forall p :: p in Minus(mid, InFolders(mid, fs)) <==> p in s && !Swept(p)
  {
  }

  lemma JsonIsNotPng(name: string)
    requires IsJson(name)
    ensures !IsPng(name)
  {
    assert name[|name| - 4..] == "json";
  }
}
